=== FILE: README.md ===
# Mercari to-do list extension: a Dafny model of its core

This project models the logic of a browser extension for the Mercari
marketplace, and proves properties of that logic. The extension has three
parts.

- **Listing-page watcher** (`src/sell-create-content.ts`). While a listing is
  being created, the watcher polls the page every `interval` seconds for the
  shipping option "らくらくメルカリ便". The marker is only looked for once
  the description is filled in; a tick with an empty description just
  reschedules. When the option is found, the watcher
  either raises an alert or runs a five-stage automatic change of the
  shipping method to a postal one. The fifth stage lists the item.
- **To-do list search** (`src/content.ts`). A search box filters the sales
  dashboard's to-do entries by item name. It totals the sheets ("3枚") of
  the entries left visible, and colours each visible entry by its sheet
  count.
- **Settings popup** (`src/popup.ts`). The popup holds the default settings,
  reads them back from storage, and validates the polling interval when the
  user presses save.

The model is written as pure functions over immutable records.

- **Page.** The listing page is an abstract record of exactly what the
  selectors read (`ListingPage.Page`). Each auto-change stage reads its own
  view of the page, because every click changes the document.
- **Time.** Time is abstract. A scheduled callback is a `Watcher.Timer` in
  the `monitoringTimeout` slot.
- **Lost callbacks.** `Watcher.Monitor.lost` counts callbacks whose handle
  was overwritten while they were still due. This makes "at most one tick
  is ever pending" a statement about states, which `Watcher.SingleFlight`
  proves from script load, over every sequence of events.
- **Effects.** Every entry point returns the effects the page observes:
  clicks, waits and alerts.
- **Stage outcomes.** The sequencer is proved for any table of stage
  outcomes (`Sequencer.Steps`). The five stage functions on their views of
  the page are one such table (`Sequencer.StepsOf`).

Modules:

| module | file | contents |
|---|---|---|
| `Base` | base.dfy | `Option`, `Result`, `FirstIndex` (`Array.prototype.find` by position) |
| `Text` | text.dfy | ECMAScript `\s`, `includes`, `trim`, the two whitespace `replace`s, `toString`, `parseInt` |
| `Settings` | settings.dfy | `MonitoringSettings`, the defaults, `loadSettings` |
| `Popup` | popup.dfy | the form, the save handler, the form filled from a record |
| `ListingPage` | listing_page.dfy | the abstract page and the five stage functions |
| `Sequencer` | sequencer.dfy | `executeAutoChange` |
| `Watcher` | watcher.dfy | the monitor state machine and its entry points |
| `TodoText` | todo_text.dfy | `getItemName`, `getItemCount`, `getBackgroundColorByCount` |
| `TodoSearch` | todo_search.dfy | `getTextContent`, `searchInPage`, `changeBackgroundColor` |

A detection with both `autoChangeEnabled` and `showAlert` off does not stop
monitoring: the check returns without acting, the cycle reschedules, and
the next tick finds the marker again (src/sell-create-content.ts:204-221,
243-247). `Watcher.CheckTargetElement` and `Watcher.TickOutcome` state this
case.

## Model

| member | source | states |
|---|---|---|
| Settings.LoadSettings | src/popup.ts:15-23 | the stored record when one is present; the defaults when nothing is stored or the read throws |
| Settings.LoadedSettingsAreSane | src/sell-create-content.ts:160-168 | whatever storage yields, the watcher loads an in-range record with the fixed stage delay, provided any stored record is itself in range with that delay |
| Popup.SavedRecordLoadsSane | src/popup.ts:137-150 | every record the corrected save handler stores loads back in range with the fixed delay; the handler as written breaks this with its NaN interval |
| Popup.DefaultsSurviveFirstSave | src/popup.ts:3-9 | the defaults (interval 1, disabled, alert on, auto-change off, wait 1000) are a record the popup shows and saves back unchanged |
| Popup.IntervalText | src/popup.ts:132 | a missing interval input or an empty value reads as "1"; any other value is read as typed; the text is never empty |
| Popup.EmptyIntervalSavesOne | src/popup.ts:132-150 | an empty or missing interval field saves an interval of 1 second |
| Popup.SaveClicked | src/popup.ts:132-150 | the corrected handler (see ## Findings): a record is saved only when the text parses to an integer from 1 to 60; it carries that integer, the three checked flags and wait 1000; everything else is refused with the range error |
| Popup.SaveClickedAsWritten | src/popup.ts:132-140 | as written, text with no leading integer passes the range check and is saved with a NaN interval; an integer outside 1..60 is refused |
| Popup.AsWrittenAgreesOnIntegers | src/popup.ts:137-148 | the handler as written and the corrected one agree exactly on text that parses to an integer |
| Popup.NaNIntervalIsSaved | src/popup.ts:132-140 | the input "abc" is stored by the handler as written and refused by the corrected one |
| Popup.ParseIntOfShowInt | src/popup.ts:87 | `parseInt` reads back every integer that `toString` writes into the form in decimal |
| Popup.FormOf | src/popup.ts:75-107 | the form the popup opens with reads back, through the save handler's reading, as the record's interval and its three flags |
| Popup.ReopenAndSave | src/popup.ts:75-107 | opening the popup on a record and saving without edits writes the record back with wait 1000 when its interval is in range, and refuses otherwise (for intervals written in decimal) |
| Text.Trim | src/content.ts:94 | the result neither starts nor ends with whitespace and is no longer than the input |
| Text.TrimOfPadded | src/content.ts:94 | trimming text made of a whitespace run, a middle that neither starts nor ends with whitespace, and another whitespace run yields exactly the middle, inner whitespace included |
| Text.TrimKeepsText | src/content.ts:94 | trimming drops only whitespace: the other characters survive in order |
| Text.RemoveSpaces | src/content.ts:104 | the result has no whitespace, keeps only characters of the input, and leaves whitespace-free text unchanged |
| Text.RemoveSpacesConcat | src/content.ts:104 | removing whitespace from a concatenation removes it from each part, so every non-whitespace character survives in order |
| Text.CollapseSpaces | src/content.ts:93 | the only whitespace left is single plain spaces, never two in a row; the other characters survive in order; the text does not grow |
| Text.CollapseConcat | src/content.ts:93 | collapsing works piece by piece across any boundary that does not fall inside a whitespace run |
| Text.CollapseGap | src/content.ts:93 | a whitespace run between two pieces becomes exactly one plain space |
| Text.CollapseNoSpace | src/content.ts:93 | collapsing whitespace runs leaves text without whitespace unchanged |
| Text.ParseInt | src/popup.ts:132 | text without any decimal digit is NaN; text starting with a digit is a non-negative integer |
| Text.ParseDigits | src/popup.ts:132 | after the sign: NaN exactly when the text does not start with a digit, and a non-negative integer otherwise |
| Text.ParseIntOfParts | src/popup.ts:132 | leading whitespace, an optional sign, a digit run of value n and any text not starting with a digit parse to n, or to -n after a '-'; so " 5", "+5", "05" and "5 sec" all give 5 |
| Text.ParseIntNaN | src/popup.ts:132 | after the leading whitespace, the result is NaN exactly when no digit follows an optional sign |
| Text.ParseIntOfShowNat | src/popup.ts:132 | `parseInt` of a decimal rendering is the number rendered |
| ListingPage.ClickChangeButton | src/sell-create-content.ts:26-34 | succeeds exactly when some shipping link contains "変更する", and then clicks the first such link; otherwise throws the missing-link error |
| ListingPage.ExpandShippingTab | src/sell-create-content.ts:40-48 | clicks the expand button exactly when it is present, and throws otherwise |
| ListingPage.SelectPostalRadio | src/sell-create-content.ts:54-76 | succeeds exactly when some radio's non-empty `aria-labelledby` names an element whose text contains "郵便", then clicks the first such radio; otherwise throws without clicking |
| ListingPage.ClickUpdateButton | src/sell-create-content.ts:82-90 | clicks the update button exactly when it is present, and throws otherwise |
| ListingPage.ClickSellButton | src/sell-create-content.ts:96-110 | the path is checked before the button: a path other than /sell/create throws the location error even when the button exists; a missing button throws; otherwise the button is clicked |
| ListingPage.RunStageClicksOwnControl | src/sell-create-content.ts:26-110 | each stage clicks only its own kind of control: a shipping link, the expand button, a radio, the update button or the list-item button |
| ListingPage.OnlyListItemClicksSell | src/sell-create-content.ts:96-110 | only stage 5 can click the list-item button, and only at /sell/create |
| Sequencer.RunStages | src/sell-create-content.ts:125-157 | at most a click and a wait per stage; a failure names a stage of the list that throws |
| Sequencer.Completed | src/sell-create-content.ts:125-157 | counts the leading stages that succeed; the stage at the count, if any, throws |
| Sequencer.RunStagesEndsAtFirstError | src/sell-create-content.ts:125-157 | for any stage list and any stage outcomes, the run fails exactly when some stage throws, and then at the first one with its error |
| Sequencer.RunStagesEffectCount | src/sell-create-content.ts:125-152 | a run makes one click and one wait per succeeding stage, except that a complete run ends on its last click |
| Sequencer.RunStagesClicksAt | src/sell-create-content.ts:125-152 | the i-th click of a run is the control of the i-th stage |
| Sequencer.RunStagesSleepsAfter | src/sell-create-content.ts:125-152 | every click that something follows is followed by a wait of `waitTime` |
| Sequencer.RunStagesIsShaped | src/sell-create-content.ts:125-157 | a run of any stage list clicks the controls of the succeeding prefix in order, waits `waitTime` between consecutive clicks, and fails at the first throwing stage with its error |
| Sequencer.RunStagesEffects | src/sell-create-content.ts:125-152 | a run of any stage list only clicks and waits `waitTime` |
| Sequencer.ClickedByCompletedStage | src/sell-create-content.ts:125-157 | every control a run clicks is the control of a stage that succeeded before the run ended |
| Sequencer.ExecuteAutoChange | src/sell-create-content.ts:125-157 | the five-stage run has that shape |
| Sequencer.FiveStagesComplete | src/sell-create-content.ts:125-152 | for any stage outcomes in which all five stages succeed, the run is the five clicks in stage order with four waits between them |
| Sequencer.FiveStagesSucceedIff | src/sell-create-content.ts:125-157 | for any stage outcomes, the five-stage run ends without an error exactly when every stage succeeds |
| Sequencer.FiveStagesAbort | src/sell-create-content.ts:125-157 | for any stage outcomes, a stage that throws after all earlier ones succeeded ends the run with its error, after one click and one wait per earlier stage: clicks of those stages' controls at the even positions, waits at every odd one |
| Sequencer.CompleteRun | src/sell-create-content.ts:125-152 | when every stage finds its control, the run is the five clicks in order with a wait of `waitTime` after each of the first four and none after the fifth |
| Sequencer.SucceedsIffAllStagesSucceed | src/sell-create-content.ts:125-157 | the run ends without an error exactly when all five stages find their controls |
| Sequencer.AbortedRun | src/sell-create-content.ts:125-157 | when a stage throws after all earlier stages succeeded, its error is rethrown, every earlier stage clicked its control once in order with a wait after each, and nothing later happened |
| Sequencer.RunEffects | src/sell-create-content.ts:125-152 | a run only clicks and waits `waitTime`; it never alerts |
| Sequencer.WrongPathNeverListsItem | src/sell-create-content.ts:96-110 | if the page is not at /sell/create when stage 5 runs, the list-item button is never clicked and the run fails, with the location error when the failure is at stage 5 |
| Sequencer.NoPostalRadioStopsBeforeUpdate | src/sell-create-content.ts:139-157 | if no radio qualifies at stage 3, the run fails at stage 3 or earlier and neither the update nor the list-item button is clicked |
| Watcher.StopMonitoring | src/sell-create-content.ts:275-284 | afterwards the handle is null and monitoring is off, whatever the prior state; the stored callback is cancelled; the settings are kept |
| Watcher.StopIsIdempotent | src/sell-create-content.ts:275-284 | stopping twice is stopping once, and stopping a stopped watcher changes nothing |
| Watcher.Schedule | src/sell-create-content.ts:243-247 | registers one timer with the current interval in seconds times 1000, which raises the number of pending callbacks by exactly one |
| Watcher.Inspect | src/sell-create-content.ts:174-201 | the marker counts as found exactly when the region has sections, the description is non-empty and some section contains the marker; a missing region and an empty description are told apart in that order |
| Watcher.CheckTargetElement | src/sell-create-content.ts:174-226 | without detection nothing happens. On detection with auto-change: the fixed 2000 ms wait, the five-stage run, then a stop whether the run fails or not. Else with alerts: one alert and a stop. With neither flag: nothing, and monitoring continues |
| Watcher.RunMonitoringCycle | src/sell-create-content.ts:232-248 | does nothing while monitoring is off; otherwise checks once and schedules exactly one new tick with the current interval when monitoring survived the check, and none otherwise |
| Watcher.StartMonitoring | src/sell-create-content.ts:254-269 | always stops first; when disabled, monitoring stays off with no timer; when on, exactly one tick is pending afterwards |
| Watcher.StartForgetsPriorRun | src/sell-create-content.ts:254-260 | a start from any state is the same as a start from the stopped state |
| Watcher.UpdateSettings | src/sell-create-content.ts:291-306 | the new record replaces the old one. An enabled record restarts monitoring; a record that switches monitoring off stops it; a record that stays disabled leaves the watcher alone |
| Watcher.TimerFires | src/sell-create-content.ts:244-246 | without a due callback nothing runs |
| Watcher.Step | src/sell-create-content.ts:308-345 | initialisation applies the loaded record and a settings message the sent one; a firing without a due handle does nothing; unloading stops monitoring, keeps the settings and has no effect |
| Watcher.QuiescentPending | src/sell-create-content.ts:14-15 | between events, one tick is pending while monitoring and none otherwise |
| Watcher.TickOutcome | src/sell-create-content.ts:179-221 | a tick of a running watcher: no detection (also a missing region or empty description) changes nothing and leaves the same tick pending. Detection with auto-change: the delayed run, then off with nothing pending. Else with alerts: one alert, then off. With neither flag: monitoring continues unchanged |
| Watcher.StepKeepsQuiescent | src/sell-create-content.ts:232-306 | load, settings change, timer firing and unload all keep the between-events invariant |
| Watcher.QuiescentAfter | src/sell-create-content.ts:232-306 | any sequence of events keeps the between-events invariant |
| Watcher.SingleFlight | src/sell-create-content.ts:232-248 | from script load, whatever events occur, at most one tick is ever pending, and one is pending exactly while monitoring |
| Watcher.RestartAfterUpdate | src/sell-create-content.ts:291-306 | an update to an enabled record restarts polling from the update, and leaves exactly one tick with the new interval pending when the immediate check finds nothing |
| Watcher.DisableStops | src/sell-create-content.ts:291-306 | an update to a disabled record leaves monitoring off with nothing pending and no effect |
| TodoText.RemoveBrackets | src/content.ts:95 | the result has no 「 or 」, keeps only characters of the input, and leaves bracket-free text unchanged |
| TodoText.Normalize | src/content.ts:92-95 | the normalised text has no brackets |
| TodoText.NormalizeKeepsText | src/content.ts:92-95 | normalising drops only whitespace and brackets: the other characters of the message survive in order |
| TodoText.BracketsAndSpacesCommute | src/content.ts:92-95 | removing brackets and removing whitespace can be done in either order |
| TodoText.NormalizeGap | src/content.ts:92-95 | a whitespace run between two words survives normalising as exactly one space, and only the words' brackets are dropped |
| TodoText.NormalizeOneLine | src/content.ts:93 | the normalised text holds no line terminator, since collapsing turned each into a plain space |
| TodoText.NormalizeMayStartWithSpace | src/content.ts:92-95 | trimming comes before bracket removal, so "「 w" normalises to " w", with a leading space |
| TodoText.FindName | src/content.ts:97-98 | the match found is the leftmost one, and at that position the shortest (lazy group); no match at all means there is none |
| TodoText.Extract | src/content.ts:97-104 | "" when the text has no match; the name extracted never contains whitespace or brackets |
| TodoText.ItemName | src/content.ts:91-105 | "" when the normalised text does not match the pattern; the name never contains whitespace or brackets |
| TodoText.NormalizeMessage | src/content.ts:92-95 | normalising a dashboard message whose buyer and trailer are free of whitespace and brackets drops the two framing brackets and any inside the item name, and collapses the whitespace runs inside the name, nothing else |
| TodoText.MatchInMessage | src/content.ts:97-98 | in such a normalised message, the match captures exactly the item name, provided it holds no line terminator, the buyer's name has no "さんが" and no ending starts inside the item name |
| TodoText.ItemNameOfNormalized | src/content.ts:91-105 | any message that normalises to "<buyer>さんが<item><ending><trailer>" yields the item name with its whitespace removed, under the buyer and ending conditions |
| TodoText.ItemNameOfMessage | src/content.ts:91-105 | `getItemName` of a dashboard message is its item name with all whitespace and all 「」 removed, whatever the name holds, provided the name as normalising leaves it is non-empty and no ending starts inside it |
| TodoText.ItemNameOfTwoWords | src/content.ts:91-105 | a two-word name such as "ノート 3枚" comes back as "ノート3枚" |
| TodoText.ItemNameOfBracketedWord | src/content.ts:91-105 | a name holding a bracketed word, such as "「鬼滅」1巻", comes back as "鬼滅1巻" |
| TodoText.FindCount | src/content.ts:108 | the match found is the leftmost digit run followed by 枚, and none means there is none |
| TodoText.ItemCount | src/content.ts:107-110 | 0 when no digit run is followed by 枚; otherwise the decimal value of the leftmost such run |
| TodoText.ItemCountOfSheets | src/content.ts:107-110 | a count written "<n>枚" after digit-free text reads back as n |
| TodoText.BackgroundColorByCount | src/content.ts:181-194 | a colour exactly for the counts 1, 2, 3 and 4 |
| TodoText.ColoursAreDistinct | src/content.ts:181-194 | different counts in 1..4 get different colours |
| TodoSearch.TextContent | src/content.ts:83-89 | "" when the entry has no paragraph, and the paragraph's text otherwise |
| TodoSearch.ChangeBackgroundColor | src/content.ts:200-231 | hidden entries and entries without a name are untouched; every other entry gets the colour of its count, or none; nothing else changes |
| TodoSearch.ChangeBackgroundColorIdempotent | src/content.ts:200-231 | colouring twice is colouring once |
| TodoSearch.Select | src/content.ts:140-165 | the entries selected are no more than the entries given, and every one is kept |
| TodoSearch.SelectStep | src/content.ts:140-165 | one more entry adds one to the count and its weight to the total exactly when it is kept |
| TodoSearch.HideAndCount | src/content.ts:137-165 | each entry is hidden exactly when it is not kept; the counter holds the number of kept entries and the sum of their weights |
| TodoSearch.SearchInPage | src/content.ts:119-167 | an empty term unhides every entry, changes nothing else and shows (0, 0). Otherwise an entry is visible exactly when its name is non-empty and its lower-cased name contains the term; the counter shows the sheet total and the number of visible entries; visible entries are coloured by count |
| TodoSearch.ShowsNarrows | src/content.ts:151 | an entry visible for a term is visible for every term that the first one contains |
| TodoSearch.SelectMonotone | src/content.ts:140-165 | a selection that keeps fewer entries counts no more entries and no more weight |
| TodoSearch.NarrowingLowersCounts | src/content.ts:137-165 | extending the search term never raises the entry count or the sheet total |

## Left out

- Chrome APIs are left out: storage writes, `chrome.tabs.query`, `sendMessage`, and the `chrome.runtime.onMessage` listener. A storage read is a `StorageRead` value; a settings message is the `SettingsChanged` event.
- Logging is a no-op. Console output, timestamps and message formatting are not modelled.
- Wall-clock time is left out. `sleep` and `alert` are effects in a list; `setTimeout` is an abstract timer.
- Each tick is atomic, including its whole auto-change run. The model therefore leaves out an `updateSettings` or `stopMonitoring` arriving during an in-flight 2000 ms or stage wait.
- Watcher.Schedule: the delay is `interval * 1000` as an unbounded integer. Browsers keep a timer's delay as a signed 32-bit integer, so a delay above 2^31 - 1 ms overflows and may fire almost at once; the model ignores that. An in-range interval (at most 60 s, so 60000 ms) never comes near it.
- `String.prototype.toLowerCase` is the function parameter `lower` of the search. The term is taken as already lower-cased, as the input handler does.
- DOM creation and styling in `createSearchBox`, `createCountDisplay` and `insertSearchBox` are left out. So is the text formatting of `updateCountDisplay`, whose two numbers are the `Display` record.
- Popup.ParseIntOfShowInt: holds for the decimal rendering only. JavaScript writes integers of magnitude 10^21 and above in exponent form ("1e+21"), which `parseInt` reads as its leading digit; `ShowInt` does not model that form.
- Popup.FormOf: shares that limit on the interval text. It also takes each enabled/disabled radio pair to be one radio group, so checking one clears the other; the popup's HTML is not part of this model.
- Popup.ReopenAndSave: shares both limits. A stored interval of 10^21 or more would show as exponent text and be saved as its leading digit rather than refused.
- Characters are Unicode scalar values, not UTF-16 code units. The two differ only on astral characters, which no modelled function treats specially.
- TodoText.ItemNameOfMessage: takes the buyer's name and the text after the ending to be free of whitespace and brackets; only the item name may hold them. It also leaves out names that are empty once normalised (such as "" or "「」"): the lazy group then needs a character of the ending, and the result depends on the text after it.
- Text.ParseInt: values beyond double precision are not rounded, and NaN is a separate constructor. A radix prefix plays no part, because the call passes radix 10.
- Popup.SaveClickedAsWritten: does not model the saved record further, because a NaN interval cannot be an `int`. The outcome records the flags stored alongside it.
- `MonitoringSettings` is imported from src/types/index.ts, but that file does not define it. It is defined here as a record of `interval`, `enabled`, `showAlert`, `autoChangeEnabled` and `waitTime`.
- The popup's status messages and `saveSettings` are represented only by the save outcome.
- The `DOMContentLoaded` and `beforeunload` wiring is modelled only as the `Loaded` and `Unloaded` events.

## Findings

| source | as written | input that shows it | evidently intended | confidence | as-written member | corrected member |
|---|---|---|---|---|---|---|
| src/popup.ts:132-140 | `parseInt` of text with no leading integer is NaN. Both comparisons with NaN are false, so the range check passes and a record with a NaN interval is stored and sent to the watcher | interval field "abc" | refuse any interval that is not an integer from 1 to 60, as the error status says | medium (depends on whether the input element admits such text); not executed | Popup.NaNIntervalIsSaved | Popup.SaveClicked |

=== FILE: base.dfy ===
/** Small shared vocabulary: optional values, results with an error side,
    and "the first element that satisfies a test", which is how every DOM
    lookup in the extension (`querySelector`, `Array.find`, a `for … break`
    loop) picks its element. */
module Base {

  /** A value that may be absent (`null` / `undefined` in the extension). */
  datatype Option<+T> = None | Some(value: T)

  /** The outcome of an operation that either yields a value or throws. */
  datatype Result<+T, +E> = Ok(value: T) | Err(error: E)

  /** Index of the first element at or after `from` that satisfies `p`,
      scanning left to right, or `None` if no such element exists. */
  function FirstIndex<T>(xs: seq<T>, p: T -> bool, from: nat): (r: Option<nat>)
    decreases |xs| - from
    ensures r.Some? ==> from <= r.value < |xs| && p(xs[r.value])
    ensures r.Some? ==> forall j | from <= j < r.value :: !p(xs[j])
    ensures r.None? ==> forall j | from <= j < |xs| :: !p(xs[j])
  {
    if from >= |xs| then None
    else if p(xs[from]) then Some(from)
    else FirstIndex(xs, p, from + 1)
  }
}

=== FILE: listing_page.dfy ===
/** The listing-creation page as the watcher sees it, and the five stages of
    the automatic shipping-method change, each of which looks up one control
    on the page and clicks it or throws. The page is an abstract record of
    exactly what the selectors of `src/sell-create-content.ts` observe. */
module ListingPage {
  import opened Base
  import opened Text

  /** The text whose presence in the watched region triggers detection. */
  const Marker := "らくらくメルカリ便"
  /** Text that identifies the shipping-method "change" link (stage 1). */
  const ChangeLabel := "変更する"
  /** Text that identifies the postal radio button's label (stage 3). */
  const PostalLabel := "郵便"
  /** The only location at which the final "list item" button may be pressed. */
  const SellPath := "/sell/create"

  /** A shipping-method radio button: the value of its `aria-labelledby`
      attribute, `None` when the attribute is absent. */
  datatype Radio = Radio(labelledBy: Option<string>)

  /** Everything the watcher and the five stages read from the document.
      - `sections`: text of every `#main > form > section`, in document order;
      - `description`: value of the `textarea[name="description"]`, if present;
      - `pathname`: `window.location.pathname`;
      - `shippingLinks`: text of every shipping-method menu link;
      - `hasExpandButton`, `hasUpdateButton`, `hasSellButton`: whether the
        shipping-service trigger, the update button and the list-item button
        are present;
      - `radios`: the `selectedShippingMethod` radio buttons, in order;
      - `labels`: text of the element with each id (`getElementById`). */
  datatype Page = Page(
    sections: seq<string>,
    description: Option<string>,
    pathname: string,
    shippingLinks: seq<string>,
    hasExpandButton: bool,
    radios: seq<Radio>,
    labels: map<string, string>,
    hasUpdateButton: bool,
    hasSellButton: bool)

  /** The controls the extension ever clicks; links and radios are
      identified by their position among their kind. */
  datatype Control =
    | ChangeLink(link: nat)
    | ExpandButton
    | PostalRadio(radio: nat)
    | UpdateButton
    | SellButton

  /** What the watcher does to the outside world, in order. */
  datatype Effect = Click(control: Control) | Sleep(ms: int) | Alert

  /** The five stages of the automatic change, in execution order. */
  datatype Stage = ChangeShipping | ExpandTab | SelectPostal | ConfirmUpdate | ListItem

  const Stages: seq<Stage> := [ChangeShipping, ExpandTab, SelectPostal, ConfirmUpdate, ListItem]

  /** Why a stage throws: the control it looks for is missing, or (stage 5)
      the page is at the wrong location. */
  datatype StageError =
    | ChangeLinkMissing
    | ExpandButtonMissing
    | PostalRadioMissing
    | UpdateButtonMissing
    | WrongPath(path: string)
    | SellButtonMissing

  // ----- stage 1 -----

  predicate IsChangeLink(text: string) {
    Contains(text, ChangeLabel)
  }

  /** `clickChangeButton`: the first shipping-method link whose text
      contains "変更する". */
  function ClickChangeButton(p: Page): (r: Result<Control, StageError>)
    ensures r.Ok? <==> exists i | 0 <= i < |p.shippingLinks| :: IsChangeLink(p.shippingLinks[i])
    ensures r.Ok? ==>
      && r.value.ChangeLink?
      && r.value.link < |p.shippingLinks| && IsChangeLink(p.shippingLinks[r.value.link])
      && forall j | 0 <= j < r.value.link :: !IsChangeLink(p.shippingLinks[j])
    ensures r.Err? ==> r.error == ChangeLinkMissing
  {
    match FirstIndex(p.shippingLinks, IsChangeLink, 0)
    case Some(i) => Ok(ChangeLink(i))
    case None => Err(ChangeLinkMissing)
  }

  // ----- stage 2 -----

  /** `expandShippingTab`. */
  function ExpandShippingTab(p: Page): (r: Result<Control, StageError>)
    ensures r.Ok? <==> p.hasExpandButton
    ensures r.Ok? ==> r.value == ExpandButton
    ensures r.Err? ==> r.error == ExpandButtonMissing
  {
    if p.hasExpandButton then Ok(ExpandButton) else Err(ExpandButtonMissing)
  }

  // ----- stage 3 -----

  /** A radio qualifies when it names a non-empty label id, an element with
      that id exists, and its text contains "郵便". */
  predicate IsPostalRadio(labels: map<string, string>, r: Radio) {
    && r.labelledBy.Some?
    && r.labelledBy.value != ""
    && r.labelledBy.value in labels
    && Contains(labels[r.labelledBy.value], PostalLabel)
  }

  /** `selectPostalRadio`: the first qualifying radio button. */
  function SelectPostalRadio(p: Page): (r: Result<Control, StageError>)
    ensures r.Ok? <==> exists i | 0 <= i < |p.radios| :: IsPostalRadio(p.labels, p.radios[i])
    ensures r.Ok? ==>
      && r.value.PostalRadio?
      && r.value.radio < |p.radios| && IsPostalRadio(p.labels, p.radios[r.value.radio])
      && forall j | 0 <= j < r.value.radio :: !IsPostalRadio(p.labels, p.radios[j])
    ensures r.Err? ==> r.error == PostalRadioMissing
  {
    match FirstIndex(p.radios, (radio: Radio) => IsPostalRadio(p.labels, radio), 0)
    case Some(i) => Ok(PostalRadio(i))
    case None => Err(PostalRadioMissing)
  }

  // ----- stage 4 -----

  /** `clickUpdateButton`. */
  function ClickUpdateButton(p: Page): (r: Result<Control, StageError>)
    ensures r.Ok? <==> p.hasUpdateButton
    ensures r.Ok? ==> r.value == UpdateButton
    ensures r.Err? ==> r.error == UpdateButtonMissing
  {
    if p.hasUpdateButton then Ok(UpdateButton) else Err(UpdateButtonMissing)
  }

  // ----- stage 5 -----

  /** `clickSellButton`: the location is checked before the button is even
      looked up. */
  function ClickSellButton(p: Page): (r: Result<Control, StageError>)
    ensures r.Ok? <==> p.pathname == SellPath && p.hasSellButton
    ensures r.Ok? ==> r.value == SellButton
    ensures p.pathname != SellPath ==> r == Err(WrongPath(p.pathname))
    ensures p.pathname == SellPath && !p.hasSellButton ==> r == Err(SellButtonMissing)
  {
    if p.pathname != SellPath then Err(WrongPath(p.pathname))
    else if !p.hasSellButton then Err(SellButtonMissing)
    else Ok(SellButton)
  }

  /** The stage function for each position of the sequence. */
  function RunStage(s: Stage, p: Page): Result<Control, StageError> {
    match s
    case ChangeShipping => ClickChangeButton(p)
    case ExpandTab => ExpandShippingTab(p)
    case SelectPostal => SelectPostalRadio(p)
    case ConfirmUpdate => ClickUpdateButton(p)
    case ListItem => ClickSellButton(p)
  }

  /** The kind of control each stage clicks. */
  predicate OwnControl(s: Stage, c: Control) {
    match s
    case ChangeShipping => c.ChangeLink?
    case ExpandTab => c == ExpandButton
    case SelectPostal => c.PostalRadio?
    case ConfirmUpdate => c == UpdateButton
    case ListItem => c == SellButton
  }

  /** Every stage clicks only its own kind of control. */
  lemma RunStageClicksOwnControl(s: Stage, p: Page)
    requires RunStage(s, p).Ok?
    ensures OwnControl(s, RunStage(s, p).value)
  {
  }

  /** Only the final stage can click the list-item button, and only at the
      listing location. */
  lemma OnlyListItemClicksSell(s: Stage, p: Page)
    requires RunStage(s, p) == Ok(SellButton)
    ensures s == ListItem && p.pathname == SellPath
  {
  }
}

=== FILE: popup.dfy ===
/** The settings popup: how the form is filled from a stored record and how
    the save button turns the form back into a record, including the
    interval range check. Storage writes and the notification of open
    listing tabs are external; the outcome says whether they happen. */
module Popup {
  import opened Base
  import opened Text
  import opened Settings

  /** The form as the save handler reads it. Each field is `None` when its
      element is missing from the popup document; the three booleans are the
      `checked` states of the "enabled", "alertEnabled" and
      "autoChangeEnabled" radio buttons. */
  datatype SettingsForm = SettingsForm(
    intervalText: Option<string>,
    enabledChecked: Option<bool>,
    alertChecked: Option<bool>,
    autoChangeChecked: Option<bool>)

  /** What pressing save leads to. `RangeError`: an error status is shown and
      nothing is stored or sent. `Save`: the record is stored and sent to the
      open listing tabs. `SaveWithNaNInterval`: a record whose interval is
      `NaN` is stored and sent, with the three flags given. */
  datatype SaveOutcome =
    | RangeError
    | Save(settings: MonitoringSettings)
    | SaveWithNaNInterval(enabled: bool, showAlert: bool, autoChangeEnabled: bool)

  /** `intervalInput?.value || '1'`: a missing input or an empty value reads
      as "1". */
  function IntervalText(form: SettingsForm): (t: string)
    ensures t != ""
    ensures form.intervalText.Some? && form.intervalText.value != "" ==> t == form.intervalText.value
    ensures form.intervalText.None? || form.intervalText == Some("") ==> t == "1"
  {
    match form.intervalText
    case Some(v) => if v == "" then "1" else v
    case None => "1"
  }

  /** `radio?.checked || false`. */
  function Checked(radio: Option<bool>): bool {
    radio == Some(true)
  }

  /** The record the save handler builds around an interval. */
  function Record(form: SettingsForm, interval: int): MonitoringSettings {
    MonitoringSettings(
      interval := interval,
      enabled := Checked(form.enabledChecked),
      showAlert := Checked(form.alertChecked),
      autoChangeEnabled := Checked(form.autoChangeChecked),
      waitTime := FixedWaitTime)
  }

  /** The save button's click handler as written: both comparisons with a
      `NaN` interval are false, so text without a leading integer passes the
      range check and is saved. */
  function SaveClickedAsWritten(form: SettingsForm): (r: SaveOutcome)
    ensures r.SaveWithNaNInterval? <==> ParseInt(IntervalText(form)).NaN?
    ensures r.RangeError? <==>
      ParseInt(IntervalText(form)).Int? && !(MinInterval <= ParseInt(IntervalText(form)).value <= MaxInterval)
  {
    match ParseInt(IntervalText(form))
    case NaN =>
      SaveWithNaNInterval(Checked(form.enabledChecked), Checked(form.alertChecked), Checked(form.autoChangeChecked))
    case Int(interval) =>
      if interval < MinInterval || interval > MaxInterval then RangeError
      else Save(Record(form, interval))
  }

  /** The save button's click handler with the range check the status
      message describes: only an integer from 1 to 60 is saved. */
  function SaveClicked(form: SettingsForm): (r: SaveOutcome)
    ensures !r.SaveWithNaNInterval?
    ensures r.Save? ==> Sane(r.settings)
    ensures r.Save? ==> ParseInt(IntervalText(form)) == Int(r.settings.interval)
    ensures r.Save? ==>
      && r.settings.enabled == Checked(form.enabledChecked)
      && r.settings.showAlert == Checked(form.alertChecked)
      && r.settings.autoChangeEnabled == Checked(form.autoChangeChecked)
    ensures r.RangeError? <==>
      !(ParseInt(IntervalText(form)).Int? && MinInterval <= ParseInt(IntervalText(form)).value <= MaxInterval)
  {
    match ParseInt(IntervalText(form))
    case NaN => RangeError
    case Int(interval) =>
      if interval < MinInterval || interval > MaxInterval then RangeError
      else Save(Record(form, interval))
  }

  /** Every record the corrected handler saves is one the watcher loads as
      sane. The handler as written breaks this: its `NaN` interval is not
      a number of seconds at all. */
  lemma SavedRecordLoadsSane(form: SettingsForm)
    requires SaveClicked(form).Save?
    ensures Sane(LoadSettings(Stored(Some(SaveClicked(form).settings))))
  {
  }

  /** The two handlers differ only on text without a leading integer. */
  lemma AsWrittenAgreesOnIntegers(form: SettingsForm)
    ensures ParseInt(IntervalText(form)).Int? <==> SaveClickedAsWritten(form) == SaveClicked(form)
  {
  }

  /** Text such as "abc" passes the handler as written and stores a `NaN`
      interval; the corrected handler refuses it. */
  lemma NaNIntervalIsSaved()
    ensures var form := SettingsForm(Some("abc"), Some(true), Some(true), Some(false));
      && SaveClickedAsWritten(form) == SaveWithNaNInterval(true, true, false)
      && SaveClicked(form) == RangeError
  {
    var form := SettingsForm(Some("abc"), Some(true), Some(true), Some(false));
    assert IntervalText(form) == "abc";
    assert forall k | 0 <= k < |"abc"| :: !IsDigit("abc"[k]);
  }

  /** An empty or missing interval field saves an interval of one second. */
  lemma EmptyIntervalSavesOne(form: SettingsForm)
    requires form.intervalText == Some("") || form.intervalText == None
    ensures SaveClicked(form).Save? && SaveClicked(form).settings.interval == 1
  {
    assert IntervalText(form) == ShowNat(1);
    ParseIntOfShowNat(1);
  }

  /** `n.toString()` for an integer of magnitude below 10^21 (decimal
      form; larger magnitudes are not written in exponent form here). */
  function ShowInt(n: int): string {
    if n < 0 then "-" + ShowNat(-n) else ShowNat(n)
  }

  lemma ParseIntOfShowInt(n: int)
    ensures ParseInt(ShowInt(n)) == Int(n)
  {
    if n >= 0 {
      ParseIntOfShowNat(n);
    } else {
      var s := ShowInt(n);
      var d := ShowNat(-n);
      assert s[0] == '-' && !IsSpace(s[0]);
      assert TrimStart(s) == s;
      assert s[1..] == d;
      DigitRunOfDigits(d, 0);
      assert d[..|d|] == d;
      DecimalValueOfShowNat(-n);
    }
  }

  /** `initializePopup`: the form shows the record's interval as text and
      checks the radio button that matches each flag; the save handler reads
      each of them back as the record has it. */
  function FormOf(s: MonitoringSettings): (form: SettingsForm)
    ensures ParseInt(IntervalText(form)) == Int(s.interval)
    ensures Checked(form.enabledChecked) == s.enabled
    ensures Checked(form.alertChecked) == s.showAlert
    ensures Checked(form.autoChangeChecked) == s.autoChangeEnabled
  {
    ShowIntIsNotEmpty(s.interval);
    ParseIntOfShowInt(s.interval);
    SettingsForm(
      intervalText := Some(ShowInt(s.interval)),
      enabledChecked := Some(s.enabled),
      alertChecked := Some(s.showAlert),
      autoChangeChecked := Some(s.autoChangeEnabled))
  }

  lemma ShowIntIsNotEmpty(n: int)
    ensures ShowInt(n) != ""
  {
    if n >= 0 {
      assert |ShowNat(n)| >= 1;
    }
  }

  /** Opening the popup on a stored record and pressing save without edits
      writes the same record back, except that the stage delay is reset to
      the fixed value; an out-of-range stored interval is refused instead. */
  lemma {:induction false} ReopenAndSave(s: MonitoringSettings)
    ensures MinInterval <= s.interval <= MaxInterval ==>
      SaveClicked(FormOf(s)) == Save(s.(waitTime := FixedWaitTime))
    ensures !(MinInterval <= s.interval <= MaxInterval) ==> SaveClicked(FormOf(s)) == RangeError
  {
    var form := FormOf(s);
    assert ParseInt(IntervalText(form)) == Int(s.interval);
  }

  /** The popup's first save on an empty store writes the defaults back. */
  lemma DefaultsSurviveFirstSave()
    ensures SaveClicked(FormOf(LoadSettings(Stored(None)))) == Save(DefaultSettings)
  {
    ReopenAndSave(DefaultSettings);
  }
}

=== FILE: sequencer.dfy ===
/** `executeAutoChange`: the five stages run strictly in order, each click
    followed by a wait of `waitTime` milliseconds except the last; the first
    stage that throws ends the run, nothing after it happens, nothing before
    it is undone, and its error is rethrown to the caller.

    The document changes while the sequence sleeps (each click opens or
    closes part of the page), so each stage reads its own view of the page:
    `view(s)` is the page as stage `s` finds it. */
module Sequencer {
  import opened Base
  import opened ListingPage

  /** Which stage threw, and why. */
  datatype Failure = Failure(stage: Stage, error: StageError)

  /** One run of the sequence: what it did, in order, and the error it
      rethrows, if any. */
  datatype Run = Run(effects: seq<Effect>, failure: Option<Failure>)

  /** What each stage does when it runs: clicks a control or throws. The
      sequence below is stated for any such table; `StepsOf` is the real
      one. */
  type Steps = Stage -> Result<Control, StageError>

  /** Each stage on its own view of the page. */
  function StepsOf(view: Stage -> Page): Steps {
    s => RunStage(s, view(s))
  }

  predicate StageSucceeds(s: Stage, view: Stage -> Page) {
    RunStage(s, view(s)).Ok?
  }

  /** The control stage `s` clicks on its view of the page. */
  function ControlOf(s: Stage, view: Stage -> Page): Control
    requires StageSucceeds(s, view)
  {
    RunStage(s, view(s)).value
  }

  /** How many leading stages of `stages` succeed: all before the result do,
      and the one at the result (if any) throws. */
  function Completed(stages: seq<Stage>, steps: Steps): (k: nat)
    ensures k <= |stages|
    ensures forall i | 0 <= i < k :: steps(stages[i]).Ok?
    ensures k < |stages| ==> steps(stages[k]).Err?
  {
    if |stages| == 0 || steps(stages[0]).Err? then 0
    else 1 + Completed(stages[1..], steps)
  }

  /** Runs `stages` in order: click, then wait unless it was the last stage;
      on the first error, stop and report it. */
  function RunStages(stages: seq<Stage>, steps: Steps, waitTime: int): (r: Run)
    decreases |stages|
    ensures |r.effects| <= 2 * |stages|
    ensures r.failure.Some? ==> r.failure.value.stage in stages && steps(r.failure.value.stage).Err?
  {
    if |stages| == 0 then Run([], None)
    else
      match steps(stages[0])
      case Err(e) => Run([], Some(Failure(stages[0], e)))
      case Ok(c) =>
        if |stages| == 1 then Run([Click(c)], None)
        else
          var rest := RunStages(stages[1..], steps, waitTime);
          Run([Click(c), Sleep(waitTime)] + rest.effects, rest.failure)
  }

  /** How a run ends in terms of how many stages succeed: it fails exactly
      at the first stage that throws, with that stage's error. */
  predicate EndsAtFirstError(stages: seq<Stage>, steps: Steps, r: Run) {
    var k := Completed(stages, steps);
    && (r.failure.None? <==> k == |stages|)
    && (k < |stages| ==> r.failure == Some(Failure(stages[k], steps(stages[k]).error)))
  }

  /** How many effects a run has: two per stage that succeeds (a click
      and a wait), except that a complete run ends on its last click. */
  predicate EffectCount(stages: seq<Stage>, steps: Steps, r: Run) {
    var k := Completed(stages, steps);
    |r.effects| == (if k == |stages| && k > 0 then 2 * k - 1 else 2 * k)
  }

  /** The `i`-th click is the control of the `i`-th stage. */
  predicate ClicksAt(stages: seq<Stage>, steps: Steps, r: Run) {
    forall i | 0 <= i < Completed(stages, steps) && 2 * i < |r.effects| ::
      r.effects[2 * i] == Click(steps(stages[i]).value)
  }

  /** Every click is followed by a wait of `waitTime`, if anything follows. */
  predicate SleepsAfter(stages: seq<Stage>, steps: Steps, waitTime: int, r: Run) {
    forall i | 0 <= i < Completed(stages, steps) && 2 * i + 1 < |r.effects| ::
      r.effects[2 * i + 1] == Sleep(waitTime)
  }

  /** The shape of a run in terms of how many stages succeed. */
  predicate Shaped(stages: seq<Stage>, steps: Steps, waitTime: int, r: Run) {
    && EndsAtFirstError(stages, steps, r)
    && EffectCount(stages, steps, r)
    && ClicksAt(stages, steps, r)
    && SleepsAfter(stages, steps, waitTime, r)
  }

  /** Splits a run whose first stage succeeds into its first click and wait
      and the run of the remaining stages. */
  lemma RunStagesUnfold(stages: seq<Stage>, steps: Steps, waitTime: int)
    requires |stages| > 1 && steps(stages[0]).Ok?
    ensures RunStages(stages, steps, waitTime) ==
      var rest := RunStages(stages[1..], steps, waitTime);
      Run([Click(steps(stages[0]).value), Sleep(waitTime)] + rest.effects, rest.failure)
    ensures Completed(stages, steps) == 1 + Completed(stages[1..], steps)
  {
  }

  lemma {:induction false} RunStagesEndsAtFirstError(stages: seq<Stage>, steps: Steps, waitTime: int)
    ensures EndsAtFirstError(stages, steps, RunStages(stages, steps, waitTime))
    decreases |stages|
  {
    if |stages| > 1 && steps(stages[0]).Ok? {
      RunStagesEndsAtFirstError(stages[1..], steps, waitTime);
      RunStagesUnfold(stages, steps, waitTime);
    }
  }

  lemma {:induction false} RunStagesEffectCount(stages: seq<Stage>, steps: Steps, waitTime: int)
    ensures EffectCount(stages, steps, RunStages(stages, steps, waitTime))
    decreases |stages|
  {
    if |stages| > 1 && steps(stages[0]).Ok? {
      RunStagesEffectCount(stages[1..], steps, waitTime);
      RunStagesUnfold(stages, steps, waitTime);
    }
  }

  lemma {:induction false} RunStagesClicksAt(stages: seq<Stage>, steps: Steps, waitTime: int)
    ensures ClicksAt(stages, steps, RunStages(stages, steps, waitTime))
    decreases |stages|
  {
    if |stages| > 1 && steps(stages[0]).Ok? {
      var tail := stages[1..];
      RunStagesClicksAt(tail, steps, waitTime);
      RunStagesUnfold(stages, steps, waitTime);
      var rest := RunStages(tail, steps, waitTime).effects;
      var r := RunStages(stages, steps, waitTime).effects;
      forall i | 1 <= i < Completed(stages, steps) && 2 * i < |r|
        ensures r[2 * i] == Click(steps(stages[i]).value)
      {
        assert r[2 * i] == rest[2 * (i - 1)];
        assert tail[i - 1] == stages[i];
      }
    }
  }

  lemma {:induction false} RunStagesSleepsAfter(stages: seq<Stage>, steps: Steps, waitTime: int)
    ensures SleepsAfter(stages, steps, waitTime, RunStages(stages, steps, waitTime))
    decreases |stages|
  {
    if |stages| > 1 && steps(stages[0]).Ok? {
      var tail := stages[1..];
      RunStagesSleepsAfter(tail, steps, waitTime);
      RunStagesUnfold(stages, steps, waitTime);
      var rest := RunStages(tail, steps, waitTime).effects;
      var r := RunStages(stages, steps, waitTime).effects;
      forall i | 1 <= i < Completed(stages, steps) && 2 * i + 1 < |r|
        ensures r[2 * i + 1] == Sleep(waitTime)
      {
        assert r[2 * i + 1] == rest[2 * (i - 1) + 1];
      }
    }
  }

  /** Any stage list, run on any table of stage outcomes, has that shape. */
  lemma RunStagesIsShaped(stages: seq<Stage>, steps: Steps, waitTime: int)
    ensures Shaped(stages, steps, waitTime, RunStages(stages, steps, waitTime))
  {
    RunStagesEndsAtFirstError(stages, steps, waitTime);
    RunStagesEffectCount(stages, steps, waitTime);
    RunStagesClicksAt(stages, steps, waitTime);
    RunStagesSleepsAfter(stages, steps, waitTime);
  }

  /** `executeAutoChange`, with the wait read from the current settings. */
  function ExecuteAutoChange(view: Stage -> Page, waitTime: int): (r: Run)
    ensures Shaped(Stages, StepsOf(view), waitTime, r)
  {
    RunStagesIsShaped(Stages, StepsOf(view), waitTime);
    RunStages(Stages, StepsOf(view), waitTime)
  }

  /** Stages 1 to 5, in this order. */
  function StageNumber(s: Stage): nat {
    match s
    case ChangeShipping => 1
    case ExpandTab => 2
    case SelectPostal => 3
    case ConfirmUpdate => 4
    case ListItem => 5
  }

  /** `StageNumber` numbers the positions of `Stages`. */
  lemma StageNumbers()
    ensures forall i | 0 <= i < |Stages| :: StageNumber(Stages[i]) == i + 1
    ensures forall s :: 1 <= StageNumber(s) <= |Stages| && Stages[StageNumber(s) - 1] == s
  {
  }

  /** Every clicked control is the control of a stage that succeeded. */
  lemma ClickedByCompletedStage(stages: seq<Stage>, steps: Steps, waitTime: int, c: Control)
    requires Click(c) in RunStages(stages, steps, waitTime).effects
    ensures exists i | 0 <= i < Completed(stages, steps) :: steps(stages[i]) == Ok(c)
  {
    var r := RunStages(stages, steps, waitTime);
    RunStagesEffectCount(stages, steps, waitTime);
    RunStagesClicksAt(stages, steps, waitTime);
    RunStagesSleepsAfter(stages, steps, waitTime);
    var j :| 0 <= j < |r.effects| && r.effects[j] == Click(c);
    var i := j / 2;
    assert j == 2 * i || j == 2 * i + 1;
    assert j == 2 * i;
    assert steps(stages[i]) == Ok(c);
  }

  /** `ClickedByCompletedStage`, for a control that may or may not have been
      clicked. */
  lemma ClickedOnlyByCompleted(stages: seq<Stage>, steps: Steps, waitTime: int, c: Control)
    ensures Click(c) in RunStages(stages, steps, waitTime).effects ==>
      exists i | 0 <= i < Completed(stages, steps) :: steps(stages[i]) == Ok(c)
  {
    if Click(c) in RunStages(stages, steps, waitTime).effects {
      ClickedByCompletedStage(stages, steps, waitTime, c);
    }
  }

  /** A control that no stage up to the `j`-th clicks is not clicked when
      the `j`-th stage throws. */
  lemma NeverClicked(stages: seq<Stage>, steps: Steps, waitTime: int, c: Control, j: nat)
    requires j < |stages| && steps(stages[j]).Err?
    requires forall i | 0 <= i < j :: steps(stages[i]) != Ok(c)
    ensures Click(c) !in RunStages(stages, steps, waitTime).effects
  {
    ClickedOnlyByCompleted(stages, steps, waitTime, c);
  }

  /** When the `j`-th stage throws, the run fails at it or at an earlier
      stage, with the error of the stage it fails at. */
  lemma FailsNoLaterThan(stages: seq<Stage>, steps: Steps, waitTime: int, j: nat)
    requires j < |stages| && steps(stages[j]).Err?
    ensures var r := RunStages(stages, steps, waitTime);
      var k := Completed(stages, steps);
      && k <= j
      && r.failure == Some(Failure(stages[k], steps(stages[k]).error))
  {
    RunStagesEndsAtFirstError(stages, steps, waitTime);
  }

  /** Any run only clicks and waits `waitTime`. */
  lemma RunStagesEffects(stages: seq<Stage>, steps: Steps, waitTime: int)
    ensures forall e | e in RunStages(stages, steps, waitTime).effects ::
      e.Click? || e == Sleep(waitTime)
  {
    var r := RunStages(stages, steps, waitTime).effects;
    RunStagesIsShaped(stages, steps, waitTime);
    forall e | e in r ensures e.Click? || e == Sleep(waitTime) {
      var j :| 0 <= j < |r| && r[j] == e;
      assert j == 2 * (j / 2) || j == 2 * (j / 2) + 1;
    }
  }

  /** The five stages, when every one of them succeeds, click in order with
      a wait after each of the first four. */
  lemma FiveStagesComplete(steps: Steps, waitTime: int)
    requires forall s :: steps(s).Ok?
    ensures RunStages(Stages, steps, waitTime) == Run([
      Click(steps(ChangeShipping).value), Sleep(waitTime),
      Click(steps(ExpandTab).value), Sleep(waitTime),
      Click(steps(SelectPostal).value), Sleep(waitTime),
      Click(steps(ConfirmUpdate).value), Sleep(waitTime),
      Click(steps(ListItem).value)], None)
  {
    var r := RunStages(Stages, steps, waitTime);
    RunStagesIsShaped(Stages, steps, waitTime);
    assert Completed(Stages, steps) == 5;
    assert r.effects[0] == Click(steps(Stages[0]).value);
    assert r.effects[2] == Click(steps(Stages[1]).value);
    assert r.effects[4] == Click(steps(Stages[2]).value);
    assert r.effects[6] == Click(steps(Stages[3]).value);
    assert r.effects[8] == Click(steps(Stages[4]).value);
    assert r.effects[1] == Sleep(waitTime) && r.effects[3] == Sleep(waitTime);
    assert r.effects[5] == Sleep(waitTime) && r.effects[7] == Sleep(waitTime);
  }

  /** The five stages run without an error exactly when each succeeds. */
  lemma FiveStagesSucceedIff(steps: Steps, waitTime: int)
    ensures RunStages(Stages, steps, waitTime).failure.None? <==> forall s :: steps(s).Ok?
  {
    RunStagesIsShaped(Stages, steps, waitTime);
    StageNumbers();
    if Completed(Stages, steps) == 5 {
      forall s ensures steps(s).Ok? {
        assert s == Stages[StageNumber(s) - 1];
      }
    }
  }

  /** When a stage throws after every earlier one succeeded, the run stops
      there with its error, after one click and one wait per earlier stage. */
  lemma FiveStagesAbort(steps: Steps, waitTime: int, s: Stage)
    requires steps(s).Err?
    requires forall t | StageNumber(t) < StageNumber(s) :: steps(t).Ok?
    ensures var r := RunStages(Stages, steps, waitTime);
      && r.failure == Some(Failure(s, steps(s).error))
      && |r.effects| == 2 * (StageNumber(s) - 1)
      && (forall t | 0 < StageNumber(t) < StageNumber(s) && 2 * (StageNumber(t) - 1) < |r.effects| ::
           r.effects[2 * (StageNumber(t) - 1)] == Click(steps(t).value))
      && forall k | 0 <= k < |r.effects| && k % 2 == 1 :: r.effects[k] == Sleep(waitTime)
  {
    var r := RunStages(Stages, steps, waitTime);
    AbortIndex(steps, s);
    RunStagesEndsAtFirstError(Stages, steps, waitTime);
    RunStagesEffectCount(Stages, steps, waitTime);
    ClicksInStageOrder(steps, waitTime);
    RunStagesSleepsAfter(Stages, steps, waitTime);
    SleepsAtOddPositions(Stages, steps, waitTime, r);
  }

  /** The stage that throws after every earlier one succeeded is where the
      successful prefix ends. */
  lemma AbortIndex(steps: Steps, s: Stage)
    requires steps(s).Err?
    requires forall t | StageNumber(t) < StageNumber(s) :: steps(t).Ok?
    ensures Completed(Stages, steps) == StageNumber(s) - 1
    ensures Stages[StageNumber(s) - 1] == s
  {
    StageNumbers();
  }

  /** `RunStagesClicksAt` for the five stages, indexed by stage number. */
  lemma ClicksInStageOrder(steps: Steps, waitTime: int)
    ensures var r := RunStages(Stages, steps, waitTime);
      forall t | steps(t).Ok? && 0 < StageNumber(t) <= Completed(Stages, steps) && 2 * (StageNumber(t) - 1) < |r.effects| ::
        r.effects[2 * (StageNumber(t) - 1)] == Click(steps(t).value)
  {
    RunStagesClicksAt(Stages, steps, waitTime);
    StageNumbers();
  }

  /** In a run no longer than two effects per completed stage, every odd
      position is a wait. */
  lemma SleepsAtOddPositions(stages: seq<Stage>, steps: Steps, waitTime: int, r: Run)
    requires SleepsAfter(stages, steps, waitTime, r)
    requires |r.effects| <= 2 * Completed(stages, steps)
    ensures forall k | 0 <= k < |r.effects| && k % 2 == 1 :: r.effects[k] == Sleep(waitTime)
  {
    forall k | 0 <= k < |r.effects| && k % 2 == 1 ensures r.effects[k] == Sleep(waitTime) {
      var i := k / 2;
      assert 2 * i + 1 == k;
    }
  }

  /** When every stage finds its control, the run is exactly the five clicks
      in order with a wait after each of the first four, and nothing is
      rethrown. */
  lemma CompleteRun(view: Stage -> Page, waitTime: int)
    requires forall s :: StageSucceeds(s, view)
    ensures ExecuteAutoChange(view, waitTime) == Run([
      Click(ControlOf(ChangeShipping, view)), Sleep(waitTime),
      Click(ControlOf(ExpandTab, view)), Sleep(waitTime),
      Click(ControlOf(SelectPostal, view)), Sleep(waitTime),
      Click(ControlOf(ConfirmUpdate, view)), Sleep(waitTime),
      Click(ControlOf(ListItem, view))], None)
  {
    var steps := StepsOf(view);
    forall s ensures steps(s).Ok? && steps(s).value == ControlOf(s, view) {
      assert StageSucceeds(s, view);
    }
    FiveStagesComplete(steps, waitTime);
  }

  /** The run succeeds exactly when all five stages find their controls. */
  lemma SucceedsIffAllStagesSucceed(view: Stage -> Page, waitTime: int)
    ensures ExecuteAutoChange(view, waitTime).failure.None? <==> forall s :: StageSucceeds(s, view)
  {
    FiveStagesSucceedIff(StepsOf(view), waitTime);
    assert forall s :: StageSucceeds(s, view) == StepsOf(view)(s).Ok?;
  }

  /** When a stage throws, the error rethrown is that stage's, every earlier
      stage clicked its control once, in order, and nothing else was clicked. */
  lemma AbortedRun(view: Stage -> Page, waitTime: int, s: Stage)
    requires !StageSucceeds(s, view)
    requires forall t | StageNumber(t) < StageNumber(s) :: StageSucceeds(t, view)
    ensures var r := ExecuteAutoChange(view, waitTime);
      && r.failure == Some(Failure(s, RunStage(s, view(s)).error))
      && |r.effects| == 2 * (StageNumber(s) - 1)
      && (forall t | 0 < StageNumber(t) < StageNumber(s) && 2 * (StageNumber(t) - 1) < |r.effects| ::
           r.effects[2 * (StageNumber(t) - 1)] == Click(ControlOf(t, view)))
      && forall k | 0 <= k < |r.effects| && k % 2 == 1 :: r.effects[k] == Sleep(waitTime)
  {
    FiveStagesAbort(StepsOf(view), waitTime, s);
  }

  /** Every effect of a run is a click or a wait of `waitTime`; the run never
      raises an alert. */
  lemma RunEffects(view: Stage -> Page, waitTime: int)
    ensures forall e | e in ExecuteAutoChange(view, waitTime).effects ::
      e.Click? || e == Sleep(waitTime)
  {
    RunStagesEffects(Stages, StepsOf(view), waitTime);
  }

  /** If the page is not at the listing location when stage 5 runs, the
      list-item button is never clicked and the run fails, at stage 5 with
      the location error unless an earlier stage already threw. */
  lemma WrongPathNeverListsItem(view: Stage -> Page, waitTime: int)
    requires view(ListItem).pathname != SellPath
    ensures var r := ExecuteAutoChange(view, waitTime);
      && Click(SellButton) !in r.effects
      && r.failure.Some?
      && (r.failure.value.stage == ListItem ==> r.failure.value.error == WrongPath(view(ListItem).pathname))
  {
    var steps := StepsOf(view);
    assert Stages[4] == ListItem;
    assert steps(ListItem) == Err(WrongPath(view(ListItem).pathname));
    FailsNoLaterThan(Stages, steps, waitTime, 4);
    NoStageClicksSell(view);
    NeverClicked(Stages, steps, waitTime, SellButton, 4);
  }

  /** Away from the listing location, no stage clicks the list-item
      button. */
  lemma NoStageClicksSell(view: Stage -> Page)
    requires view(ListItem).pathname != SellPath
    ensures forall s :: StepsOf(view)(s) != Ok(SellButton)
  {
    forall s ensures StepsOf(view)(s) != Ok(SellButton) {
      if RunStage(s, view(s)) == Ok(SellButton) {
        OnlyListItemClicksSell(s, view(s));
      }
    }
  }

  /** If no radio qualifies as postal when stage 3 runs, the update and
      list-item buttons are never clicked. */
  lemma NoPostalRadioStopsBeforeUpdate(view: Stage -> Page, waitTime: int)
    requires !StageSucceeds(SelectPostal, view)
    ensures var r := ExecuteAutoChange(view, waitTime);
      && r.failure.Some?
      && StageNumber(r.failure.value.stage) <= 3
      && Click(UpdateButton) !in r.effects
      && Click(SellButton) !in r.effects
  {
    var steps := StepsOf(view);
    assert Stages[2] == SelectPostal;
    FailsNoLaterThan(Stages, steps, waitTime, 2);
    StageNumbers();
    FirstTwoStagesClick(view, UpdateButton);
    FirstTwoStagesClick(view, SellButton);
    NeverClicked(Stages, steps, waitTime, UpdateButton, 2);
    NeverClicked(Stages, steps, waitTime, SellButton, 2);
  }

  /** The first two stages click neither the update nor the list-item
      button. */
  lemma FirstTwoStagesClick(view: Stage -> Page, c: Control)
    requires c == UpdateButton || c == SellButton
    ensures forall i | 0 <= i < 2 :: StepsOf(view)(Stages[i]) != Ok(c)
  {
    forall i | 0 <= i < 2 ensures StepsOf(view)(Stages[i]) != Ok(c) {
      var s := Stages[i];
      if RunStage(s, view(s)).Ok? {
        RunStageClicksOwnControl(s, view(s));
      }
    }
  }
}

=== FILE: settings.dfy ===
/** The monitoring configuration shared by the settings popup and the
    listing-page watcher, its defaults, and how it is read back from
    extension storage. */
module Settings {
  import opened Base

  /** One configuration record. `interval` is in seconds between watcher
      ticks, `waitTime` in milliseconds between auto-change stages. */
  datatype MonitoringSettings = MonitoringSettings(
    interval: int,
    enabled: bool,
    showAlert: bool,
    autoChangeEnabled: bool,
    waitTime: int)

  /** The record used when nothing has been stored yet; the popup and the
      watcher each declare the same constant. */
  const DefaultSettings := MonitoringSettings(
    interval := 1,
    enabled := false,
    showAlert := true,
    autoChangeEnabled := false,
    waitTime := 1000)

  const MinInterval := 1
  const MaxInterval := 60

  /** The only stage delay the popup ever writes. */
  const FixedWaitTime := 1000

  /** What the popup guarantees of every record it writes, and what the
      watcher's timer arithmetic relies on: a positive interval. */
  predicate Sane(s: MonitoringSettings) {
    MinInterval <= s.interval <= MaxInterval && s.waitTime == FixedWaitTime
  }

  /** What a read of the `monitoringSettings` storage key can observe: the
      read throws, or it returns the stored record if there is one. */
  datatype StorageRead = ReadFailed | Stored(record: Option<MonitoringSettings>)

  /** `loadSettings`: the stored record if present, else the defaults, and
      the defaults again if the read fails. */
  function LoadSettings(read: StorageRead): (s: MonitoringSettings)
    ensures read.Stored? && read.record.Some? ==> s == read.record.value
    ensures read.ReadFailed? ==> s == DefaultSettings
    ensures read == Stored(None) ==> s == DefaultSettings
  {
    match read
    case ReadFailed => DefaultSettings
    case Stored(None) => DefaultSettings
    case Stored(Some(record)) => record
  }

  /** Whatever storage yields, the loaded record is sane as long as any
      stored record is: the defaults themselves are sane. */
  lemma LoadedSettingsAreSane(read: StorageRead)
    requires read.Stored? && read.record.Some? ==> Sane(read.record.value)
    ensures Sane(LoadSettings(read))
  {
  }
}

=== FILE: text.dfy ===
/** The pieces of JavaScript string handling the extension relies on, written
    out as explicit functions: the `\s` character class, `includes`, `trim`,
    decimal digits, `Number.parseInt(…, 10)` and `Number.prototype.toString`
    on non-negative integers. Characters are Unicode scalar values; the
    code-unit view of JavaScript only differs on astral characters, none of
    which any of these functions treats specially. */
module Text {
  import opened Base

  /** The line terminators of ECMAScript: `.` in a regular expression does
      not match them. */
  predicate IsLineTerminator(c: char) {
    c == '\n' || c == '\r' || c == '\U{2028}' || c == '\U{2029}'
  }

  /** Membership in ECMAScript's `\s` class (WhiteSpace or LineTerminator),
      which is also the set `trim` and `parseInt` skip. It includes the
      ideographic space U+3000 that Japanese text uses. */
  predicate IsSpace(c: char) {
    || c == '\t' || c == '\U{B}' || c == '\U{C}' || c == ' '
    || c == '\U{A0}' || c == '\U{1680}' || ('\U{2000}' <= c <= '\U{200A}')
    || c == '\U{202F}' || c == '\U{205F}' || c == '\U{3000}' || c == '\U{FEFF}'
    || IsLineTerminator(c)
  }

  /** `\d`: the ASCII decimal digits only. */
  predicate IsDigit(c: char) {
    '0' <= c <= '9'
  }

  predicate NoSpace(s: string) {
    forall k | 0 <= k < |s| :: !IsSpace(s[k])
  }

  predicate AllSpace(s: string) {
    forall k | 0 <= k < |s| :: IsSpace(s[k])
  }

  /** `pat` occurs in `s` starting at index `i`. */
  predicate OccursAt(s: string, pat: string, i: nat) {
    i + |pat| <= |s| && s[i..i + |pat|] == pat
  }

  /** `String.prototype.includes`. */
  predicate Contains(s: string, pat: string) {
    exists i | 0 <= i <= |s| :: OccursAt(s, pat, i)
  }

  /** An occurrence that fits in the left part of a concatenation is an
      occurrence in that part. */
  lemma OccursInLeft(x: string, y: string, pat: string, k: nat)
    requires k + |pat| <= |x|
    ensures OccursAt(x + y, pat, k) <==> OccursAt(x, pat, k)
  {
    assert (x + y)[k..k + |pat|] == x[k..k + |pat|];
  }

  /** Occurrences in the right part of a concatenation are occurrences
      there, shifted. */
  lemma OccursInRight(x: string, y: string, pat: string, k: nat)
    ensures OccursAt(x + y, pat, |x| + k) <==> OccursAt(y, pat, k)
  {
    if k + |pat| <= |y| {
      assert (x + y)[|x| + k..|x| + k + |pat|] == y[k..k + |pat|];
    }
  }

  /** Containment is transitive: an occurrence of `pat` inside an
      occurrence of `mid` is an occurrence in `s`. */
  lemma ContainsTransitive(s: string, mid: string, pat: string)
    requires Contains(s, mid) && Contains(mid, pat)
    ensures Contains(s, pat)
  {
    var i :| 0 <= i <= |s| && OccursAt(s, mid, i);
    var j :| 0 <= j <= |mid| && OccursAt(mid, pat, j);
    forall k | 0 <= k < |pat| ensures s[i + j + k] == pat[k] {
      assert s[i + j + k] == s[i..i + |mid|][j + k];
      assert mid[j + k] == mid[j..j + |pat|][k];
    }
    assert s[i + j..i + j + |pat|] == pat;
    assert OccursAt(s, pat, i + j);
  }

  /** `trimStart`: drops the leading run of `\s` characters. */
  function TrimStart(s: string): (r: string)
    ensures |r| <= |s| && r == s[|s| - |r|..]
    ensures AllSpace(s[..|s| - |r|])
    ensures |r| > 0 ==> !IsSpace(r[0])
  {
    if |s| > 0 && IsSpace(s[0]) then
      var r := TrimStart(s[1..]);
      TrimStartStep(s, r);
      r
    else s
  }

  /** What `trimStart` keeps of the tail of `s` it also keeps of `s`, when
      `s` starts with whitespace. */
  lemma TrimStartStep(s: string, r: string)
    requires |s| > 0 && IsSpace(s[0])
    requires |r| <= |s| - 1 && r == s[1..][|s| - 1 - |r|..]
    requires forall k | 0 <= k < |s| - 1 - |r| :: IsSpace(s[1..][k])
    ensures r == s[|s| - |r|..]
    ensures forall k | 0 <= k < |s| - |r| :: IsSpace(s[k])
  {
    forall k | 0 < k < |s| - |r| ensures IsSpace(s[k]) {
      assert s[k] == s[1..][k - 1];
    }
  }

  /** `trimEnd`: drops the trailing run of `\s` characters. */
  function TrimEnd(s: string): (r: string)
    ensures |r| <= |s| && r == s[..|r|]
    ensures AllSpace(s[|r|..])
    ensures |r| > 0 ==> !IsSpace(r[|r| - 1])
  {
    if |s| > 0 && IsSpace(s[|s| - 1]) then
      var r := TrimEnd(s[..|s| - 1]);
      TrimEndStep(s, s[..|s| - 1], r);
      r
    else s
  }

  /** What `trimEnd` keeps of the front of `s` it also keeps of `s`, when
      `s` ends with whitespace. */
  lemma TrimEndStep(s: string, front: string, r: string)
    requires |s| > 0 && IsSpace(s[|s| - 1]) && front == s[..|s| - 1]
    requires |r| <= |front| && r == front[..|r|]
    requires forall k | |r| <= k < |front| :: IsSpace(front[k])
    ensures r == s[..|r|]
    ensures forall k | |r| <= k < |s| :: IsSpace(s[k])
  {
    forall k | |r| <= k < |front| ensures IsSpace(s[k]) {
      assert s[k] == front[k];
    }
  }

  /** `trim`: the result neither starts nor ends with `\s`
      (`TrimOfPadded`: exactly the two end runs are cut; `TrimKeepsText`:
      nothing else is lost). */
  function Trim(s: string): (r: string)
    ensures |r| <= |s|
    ensures |r| > 0 ==> !IsSpace(r[0]) && !IsSpace(r[|r| - 1])
  {
    TrimEnds(s);
    TrimEnd(TrimStart(s))
  }

  lemma TrimEnds(s: string)
    ensures var r := TrimEnd(TrimStart(s));
      |r| > 0 ==> !IsSpace(r[0]) && !IsSpace(r[|r| - 1])
  {
    var u := TrimStart(s);
    var r := TrimEnd(u);
    if |r| > 0 {
      assert r[0] == u[0];
    }
  }

  /** `trim` cuts exactly the leading and the trailing whitespace run:
      whatever lies between them, from its first to its last
      non-whitespace character, is the result. */
  lemma TrimOfPadded(x: string, m: string, y: string)
    requires AllSpace(x) && AllSpace(y)
    requires |m| == 0 || (!IsSpace(m[0]) && !IsSpace(m[|m| - 1]))
    ensures Trim(x + m + y) == m
  {
    TrimStartOfPadded(x, m, y);
    TrimEndOfPadded(m, y);
    if |m| > 0 {
      assert TrimEnd(m) == m;
    }
  }

  /** A leading whitespace run is dropped by `trimStart`. */
  lemma TrimStartOfPadded(x: string, m: string, y: string)
    requires AllSpace(x) && AllSpace(y)
    requires |m| == 0 || !IsSpace(m[0])
    ensures TrimStart(x + m + y) == if |m| == 0 then "" else m + y
  {
    ConcatAssoc(x, m, y);
    TrimStartConcat(x, m + y);
    TrimStartOfSpaces(x);
    if |m| > 0 {
      assert (m + y)[0] == m[0];
    } else {
      assert m + y == y;
      TrimStartOfSpaces(y);
    }
  }

  /** Text that neither starts nor ends with whitespace is left alone by
      trimming. */
  lemma TrimOfSolidEnds(m: string)
    requires |m| > 0 && !IsSpace(m[0]) && !IsSpace(m[|m| - 1])
    ensures Trim(m) == m
  {
    assert TrimStart(m) == m;
    assert TrimEnd(m) == m;
  }

  /** A trailing whitespace run is dropped by `trimEnd`. */
  lemma {:induction false} TrimEndOfPadded(m: string, y: string)
    requires AllSpace(y)
    ensures TrimEnd(m + y) == if |m| == 0 then "" else TrimEnd(m)
    decreases |y|
  {
    if |y| == 0 {
      assert m + y == m;
      if |m| == 0 {
        assert TrimEnd(m) == "";
      }
    } else {
      var y' := y[..|y| - 1];
      assert (m + y)[..|m + y| - 1] == m + y';
      assert (m + y)[|m + y| - 1] == y[|y| - 1];
      TrimEndOfPadded(m, y');
    }
  }

  /** Only whitespace was dropped by `trim`. */
  lemma TrimKeepsText(s: string)
    ensures RemoveSpaces(Trim(s)) == RemoveSpaces(s)
  {
    TrimStartKeepsText(s);
    TrimEndKeepsText(TrimStart(s));
  }

  /** No two neighbouring characters are both whitespace. */
  ghost predicate SingleSpaced(r: string) {
    forall j | 0 <= j < |r| - 1 :: !(IsSpace(r[j]) && IsSpace(r[j + 1]))
  }

  /** `replace(/\s+/g, ' ')`: every maximal run of `\s` becomes one space.
      The only whitespace left is single plain spaces, and the other
      characters are kept in order. */
  function CollapseSpaces(s: string): (r: string)
    decreases |s|
    ensures |r| <= |s|
    ensures forall k | 0 <= k < |r| :: !IsSpace(r[k]) || r[k] == ' '
    ensures SingleSpaced(r)
    ensures RemoveSpaces(r) == RemoveSpaces(s)
    ensures |s| > 0 && !IsSpace(s[0]) ==> |r| > 0 && r[0] == s[0]
    ensures |s| > 0 ==> |r| > 0
  {
    if |s| == 0 then ""
    else if IsSpace(s[0]) then
      var t := TrimStart(s);
      var rest := CollapseSpaces(t);
      CollapseSpaceCase(s, t, rest);
      " " + rest
    else
      var rest := CollapseSpaces(s[1..]);
      CollapseCharCase(s, rest);
      [s[0]] + rest
  }

  /** The contract of `CollapseSpaces` for text starting with whitespace,
      from the contract for the text after its leading run. */
  lemma CollapseSpaceCase(s: string, t: string, rest: string)
    requires |s| > 0 && IsSpace(s[0]) && t == TrimStart(s)
    requires |rest| <= |t| && SingleSpaced(rest)
    requires forall k | 0 <= k < |rest| :: !IsSpace(rest[k]) || rest[k] == ' '
    requires RemoveSpaces(rest) == RemoveSpaces(t)
    requires |t| > 0 ==> |rest| > 0 && rest[0] == t[0]
    ensures var r := [' '] + rest;
      && |r| <= |s|
      && (forall k | 0 <= k < |r| :: !IsSpace(r[k]) || r[k] == ' ')
      && SingleSpaced(r)
      && RemoveSpaces(r) == RemoveSpaces(s)
  {
    TrimStartKeepsText(s);
    ConsPlain(' ', rest);
    ConsSingle(' ', rest);
    RemoveSpacesCons(' ', rest);
  }

  /** The contract of `CollapseSpaces` for text starting with another
      character, from the contract for the rest of it. */
  lemma CollapseCharCase(s: string, rest: string)
    requires |s| > 0 && !IsSpace(s[0])
    requires SingleSpaced(rest)
    requires forall k | 0 <= k < |rest| :: !IsSpace(rest[k]) || rest[k] == ' '
    requires RemoveSpaces(rest) == RemoveSpaces(s[1..])
    ensures var r := [s[0]] + rest;
      && (forall k | 0 <= k < |r| :: !IsSpace(r[k]) || r[k] == ' ')
      && SingleSpaced(r)
      && RemoveSpaces(r) == RemoveSpaces(s)
  {
    ConsPlain(s[0], rest);
    ConsSingle(s[0], rest);
    RemoveSpacesCons(s[0], rest);
    HeadAndTail(s);
    RemoveSpacesCons(s[0], s[1..]);
  }

  lemma ConsPlain(c: char, rest: string)
    requires !IsSpace(c) || c == ' '
    requires forall k | 0 <= k < |rest| :: !IsSpace(rest[k]) || rest[k] == ' '
    ensures var r := [c] + rest;
      forall k | 0 <= k < |r| :: !IsSpace(r[k]) || r[k] == ' '
  {
    var r := [c] + rest;
    forall k | 0 < k < |r| ensures r[k] == rest[k - 1] {
    }
  }

  lemma ConsSingle(c: char, rest: string)
    requires SingleSpaced(rest)
    requires !IsSpace(c) || |rest| == 0 || !IsSpace(rest[0])
    ensures SingleSpaced([c] + rest)
  {
    var r := [c] + rest;
    forall k | 0 < k < |r| ensures r[k] == rest[k - 1] {
    }
  }

  lemma RemoveSpacesCons(c: char, rest: string)
    ensures RemoveSpaces([c] + rest) ==
      if IsSpace(c) then RemoveSpaces(rest) else [c] + RemoveSpaces(rest)
  {
    assert ([c] + rest)[1..] == rest;
  }

  /** Collapsing works piecewise across a boundary that is not inside a
      whitespace run. */
  lemma {:induction false} CollapseConcat(x: string, z: string)
    requires |x| == 0 || |z| == 0 || !IsSpace(x[|x| - 1]) || !IsSpace(z[0])
    ensures CollapseSpaces(x + z) == CollapseSpaces(x) + CollapseSpaces(z)
    decreases |x|
  {
    if |x| == 0 {
      assert x + z == z;
    } else if IsSpace(x[0]) {
      var u := TrimStart(x);
      if |u| == 0 {
        CollapseSpacesThenRest(x, z);
      } else {
        assert u[|u| - 1] == x[|x| - 1];
        CollapseConcat(u, z);
        CollapseSpaceStep(x, z);
      }
    } else {
      var v := x[1..];
      assert |v| == 0 || v[|v| - 1] == x[|x| - 1];
      CollapseConcat(v, z);
      CollapseCharStep(x[0], v, z);
      HeadAndTail(x);
    }
  }

  /** `CollapseConcat` when `x` is a whitespace run. */
  lemma CollapseSpacesThenRest(x: string, z: string)
    requires |x| > 0 && IsSpace(x[0]) && TrimStart(x) == ""
    requires |z| == 0 || !IsSpace(z[0])
    ensures CollapseSpaces(x + z) == CollapseSpaces(x) + CollapseSpaces(z)
  {
    CollapseOfRun(x);
    CollapseRunThen(x, z);
  }

  /** Text that is one whitespace run collapses to a single space. */
  lemma CollapseOfRun(x: string)
    requires |x| > 0 && IsSpace(x[0]) && TrimStart(x) == ""
    ensures CollapseSpaces(x) == " "
  {
    CollapseAfterSpace(x);
  }

  lemma CollapseRunThen(x: string, z: string)
    requires |x| > 0 && IsSpace(x[0]) && TrimStart(x) == ""
    requires |z| == 0 || !IsSpace(z[0])
    ensures CollapseSpaces(x + z) == " " + CollapseSpaces(z)
  {
    var xz := x + z;
    assert xz[0] == x[0];
    TrimStartConcat(x, z);
    assert TrimStart(z) == z;
    CollapseAfterSpace(xz);
  }

  /** `CollapseConcat` for `x` starting with whitespace, from the same fact
      for `x` with its leading run cut. */
  lemma CollapseSpaceStep(x: string, z: string)
    requires |x| > 0 && IsSpace(x[0]) && TrimStart(x) != ""
    requires CollapseSpaces(TrimStart(x) + z) == CollapseSpaces(TrimStart(x)) + CollapseSpaces(z)
    ensures CollapseSpaces(x + z) == CollapseSpaces(x) + CollapseSpaces(z)
  {
    var u := TrimStart(x);
    TrimStartConcat(x, z);
    assert (x + z)[0] == x[0];
    assert TrimStart(x + z) == u + z;
    assert CollapseSpaces(x) == " " + CollapseSpaces(u);
    assert CollapseSpaces(x + z) == " " + CollapseSpaces(u + z);
    ConcatAssoc(" ", CollapseSpaces(u), CollapseSpaces(z));
  }

  /** `CollapseConcat` for text starting with a character other than
      whitespace, from the same fact for the rest of it. */
  lemma CollapseCharStep(c: char, v: string, z: string)
    requires !IsSpace(c)
    requires CollapseSpaces(v + z) == CollapseSpaces(v) + CollapseSpaces(z)
    ensures CollapseSpaces([c] + v + z) == CollapseSpaces([c] + v) + CollapseSpaces(z)
  {
    ConcatAssoc([c], v, z);
    CollapseAfterNonSpace(c, v);
    CollapseAfterNonSpace(c, v + z);
    ConcatAssoc([c], CollapseSpaces(v), CollapseSpaces(z));
  }

  /** A leading whitespace run becomes one space. */
  lemma CollapseAfterSpace(s: string)
    requires |s| > 0 && IsSpace(s[0])
    ensures CollapseSpaces(s) == " " + CollapseSpaces(TrimStart(s))
  {
  }

  /** A character other than whitespace is kept as it is. */
  lemma CollapseAfterNonSpace(c: char, x: string)
    requires !IsSpace(c)
    ensures CollapseSpaces([c] + x) == [c] + CollapseSpaces(x)
  {
    assert ([c] + x)[1..] == x;
  }

  lemma HeadAndTail(x: string)
    requires |x| > 0
    ensures x == [x[0]] + x[1..]
  {
  }

  lemma ConcatAssoc(a: string, b: string, c: string)
    ensures a + (b + c) == (a + b) + c
  {
  }

  /** A whitespace run at the start collapses to one space. */
  lemma CollapseRun(w: string, y: string)
    requires |w| > 0 && AllSpace(w)
    requires |y| == 0 || !IsSpace(y[0])
    ensures CollapseSpaces(w + y) == " " + CollapseSpaces(y)
  {
    TrimStartConcat(w, y);
    TrimStartOfSpaces(w);
    assert TrimStart(y) == y;
  }

  /** A whitespace run between two pieces becomes exactly one space; the
      pieces are collapsed on their own. */
  lemma CollapseGap(x: string, w: string, y: string)
    requires |w| > 0 && AllSpace(w)
    requires |x| == 0 || !IsSpace(x[|x| - 1])
    requires |y| == 0 || !IsSpace(y[0])
    ensures CollapseSpaces(x + w + y) == CollapseSpaces(x) + " " + CollapseSpaces(y)
  {
    ConcatAssoc(x, w, y);
    CollapseConcat(x, w + y);
    CollapseRun(w, y);
    ConcatAssoc(CollapseSpaces(x), " ", CollapseSpaces(y));
  }

  lemma TrimStartOfSpaces(w: string)
    requires AllSpace(w)
    ensures TrimStart(w) == ""
  {
  }

  /** `trimStart` of a concatenation: the left part's leading run, and the
      right part's too when the left part is all whitespace. */
  lemma {:induction false} TrimStartConcat(x: string, z: string)
    ensures TrimStart(x + z) == if TrimStart(x) == "" then TrimStart(z) else TrimStart(x) + z
  {
    if |x| == 0 {
      assert x + z == z;
    } else if IsSpace(x[0]) {
      assert (x + z)[1..] == x[1..] + z;
      TrimStartConcat(x[1..], z);
    }
  }

  /** Only whitespace was dropped by `trimStart`. */
  lemma {:induction false} TrimStartKeepsText(s: string)
    ensures RemoveSpaces(TrimStart(s)) == RemoveSpaces(s)
  {
    if |s| > 0 && IsSpace(s[0]) {
      TrimStartKeepsText(s[1..]);
    }
  }

  /** Only whitespace was dropped by `trimEnd`. */
  lemma {:induction false} TrimEndKeepsText(s: string)
    ensures RemoveSpaces(TrimEnd(s)) == RemoveSpaces(s)
  {
    if |s| > 0 && IsSpace(s[|s| - 1]) {
      var front := s[..|s| - 1];
      TrimEndKeepsText(front);
      assert s == front + [s[|s| - 1]];
      RemoveSpacesConcat(front, [s[|s| - 1]]);
    }
  }

  lemma NoSpaceConcat(x: string, y: string)
    requires NoSpace(x) && NoSpace(y)
    ensures NoSpace(x + y)
  {
    forall k | 0 <= k < |x + y| ensures !IsSpace((x + y)[k]) {
      if k >= |x| {
        assert (x + y)[k] == y[k - |x|];
      }
    }
  }

  /** Text without whitespace is left alone by collapsing. */
  lemma {:induction false} CollapseNoSpace(s: string)
    requires NoSpace(s)
    ensures CollapseSpaces(s) == s
  {
    if |s| > 0 {
      assert !IsSpace(s[0]);
      CollapseNoSpace(s[1..]);
      assert [s[0]] + s[1..] == s;
    }
  }

  /** Removing whitespace from a concatenation removes it from each part. */
  lemma {:induction false} RemoveSpacesConcat(x: string, y: string)
    ensures RemoveSpaces(x + y) == RemoveSpaces(x) + RemoveSpaces(y)
  {
    if |x| > 0 {
      assert (x + y)[1..] == x[1..] + y;
      RemoveSpacesConcat(x[1..], y);
    } else {
      assert x + y == y;
    }
  }

  /** `replace(/\s+/g, '')`: every `\s` character is deleted. */
  function RemoveSpaces(s: string): (r: string)
    ensures NoSpace(r)
    ensures forall k | 0 <= k < |r| :: r[k] in s
    ensures NoSpace(s) ==> r == s
  {
    if |s| == 0 then ""
    else if IsSpace(s[0]) then RemoveSpaces(s[1..])
    else [s[0]] + RemoveSpaces(s[1..])
  }

  // ----- decimal numbers -----

  predicate AllDigits(s: string) {
    forall k | 0 <= k < |s| :: IsDigit(s[k])
  }

  function DigitValue(c: char): nat
    requires IsDigit(c)
  {
    c as int - '0' as int
  }

  function DigitChar(d: nat): (c: char)
    requires d < 10
    ensures IsDigit(c) && DigitValue(c) == d
  {
    ('0' as int + d) as char
  }

  /** The value of a string of decimal digits, most significant first. */
  function DecimalValue(s: string): nat
    requires AllDigits(s)
  {
    if |s| == 0 then 0 else DecimalValue(s[..|s| - 1]) * 10 + DigitValue(s[|s| - 1])
  }

  /** `n.toString()` for a non-negative integer below 10^21: its shortest
      decimal form. From 10^21 on JavaScript writes exponent form instead,
      which this function does not. */
  function ShowNat(n: nat): (s: string)
    ensures |s| >= 1 && AllDigits(s)
    ensures n >= 10 ==> s[0] != '0'
  {
    if n < 10 then [DigitChar(n)] else ShowNat(n / 10) + [DigitChar(n % 10)]
  }

  /** Reading back the decimal form of `n` gives `n`. */
  lemma {:induction false} DecimalValueOfShowNat(n: nat)
    ensures DecimalValue(ShowNat(n)) == n
  {
    if n >= 10 {
      var s := ShowNat(n);
      assert s[..|s| - 1] == ShowNat(n / 10);
      DecimalValueOfShowNat(n / 10);
    }
  }

  /** End of the run of digits that starts at `i` (the first non-digit
      index at or after `i`, or `|s|`). */
  function DigitRunEnd(s: string, i: nat): (j: nat)
    requires i <= |s|
    decreases |s| - i
    ensures i <= j <= |s|
    ensures forall k | i <= k < j :: IsDigit(s[k])
    ensures j < |s| ==> !IsDigit(s[j])
  {
    if i < |s| && IsDigit(s[i]) then DigitRunEnd(s, i + 1) else i
  }

  /** The sign `parseInt` accepts before the digits. */
  predicate IsSign(c: char) {
    c == '-' || c == '+'
  }

  /** A JavaScript number as far as `parseInt` can produce one here. */
  datatype Number = Int(value: int) | NaN

  /** `Number.parseInt(s, 10)`: skip leading `\s`, read an optional sign,
      then the longest run of decimal digits; no digits gives `NaN`. */
  function ParseInt(s: string): (r: Number)
    ensures (forall k | 0 <= k < |s| :: !IsDigit(s[k])) ==> r.NaN?
    ensures |s| > 0 && IsDigit(s[0]) ==> r.Int? && r.value >= 0
  {
    ParseSigned(TrimStart(s))
  }

  /** `parseInt` after the leading whitespace: a '-' negates the digits
      that follow it, a '+' is skipped. */
  function ParseSigned(t: string): (r: Number)
    ensures (forall k | 0 <= k < |t| :: !IsDigit(t[k])) ==> r.NaN?
  {
    if |t| > 0 && IsSign(t[0]) then
      var m := ParseDigits(t[1..]);
      if t[0] == '-' && m.Int? then Int(-m.value) else m
    else ParseDigits(t)
  }

  /** The value of the run of digits `u` starts with; `NaN` when it does
      not start with one. */
  function ParseDigits(u: string): (r: Number)
    ensures r.NaN? <==> !(|u| > 0 && IsDigit(u[0]))
    ensures r.Int? ==> r.value >= 0
  {
    var end := DigitRunEnd(u, 0);
    if end == 0 then NaN else Int(DecimalValue(u[..end]))
  }

  /** `parseInt` reads back what `toString` writes. */
  lemma ParseIntOfShowNat(n: nat)
    ensures ParseInt(ShowNat(n)) == Int(n)
  {
    var s := ShowNat(n);
    DecimalValueOfShowNat(n);
    ParseIntOfParts("", "", s, "", n);
    assert "" + "" + s + "" == s;
  }

  /** `parseInt` pins down every text that starts, after its leading
      whitespace and an optional sign, with a run of digits of value `n`:
      leading zeros count for nothing, and the run ends at the first
      non-digit. */
  lemma ParseIntOfParts(w: string, sign: string, d: string, rest: string, n: nat)
    requires AllSpace(w)
    requires |sign| == 0 || (|sign| == 1 && IsSign(sign[0]))
    requires |d| > 0 && AllDigits(d) && n == DecimalValue(d)
    requires |rest| == 0 || !IsDigit(rest[0])
    ensures ParseInt(w + sign + d + rest) == Int(if |sign| == 1 && sign[0] == '-' then -(n as int) else n)
  {
    ParseDigitsOfParts(d, rest);
    DigitsFirst(d, rest);
    SignedAfterSpace(w, sign, d, rest);
    ParseSignedOfParts(sign, d + rest, n);
  }

  /** The leading whitespace goes, and the sign and the digits remain. */
  lemma SignedAfterSpace(w: string, sign: string, d: string, rest: string)
    requires AllSpace(w)
    requires |sign| == 0 || (|sign| == 1 && IsSign(sign[0]))
    requires |d| > 0 && AllDigits(d)
    ensures ParseInt(w + sign + d + rest) == ParseSigned(sign + (d + rest))
  {
    var u := d + rest;
    var x := sign + u;
    ConcatAssoc(w + sign, d, rest);
    ConcatAssoc(w, sign, u);
    DigitsFirst(d, rest);
    SignThenDigit(sign, u);
    ParseIntSkipsSpace(w, x);
  }

  lemma ParseSignedOfParts(sign: string, u: string, n: nat)
    requires |sign| == 0 || (|sign| == 1 && IsSign(sign[0]))
    requires |u| > 0 && IsDigit(u[0])
    requires ParseDigits(u) == Int(n)
    ensures ParseSigned(sign + u) == Int(if |sign| == 1 && sign[0] == '-' then -(n as int) else n)
  {
    var x := sign + u;
    SignThenDigit(sign, u);
    if |sign| == 1 {
      ParseSignedOfSign(x, u, n);
    } else {
      ParseSignedOfDigit(u);
    }
  }

  /** Leading whitespace is skipped up to the first other character. */
  lemma ParseIntSkipsSpace(w: string, x: string)
    requires AllSpace(w)
    requires TrimStart(x) == x
    ensures ParseInt(w + x) == ParseSigned(x)
  {
    TrimStartConcat(w, x);
    TrimStartOfSpaces(w);
  }

  /** A sign in front of digits: '-' negates their value, '+' keeps it. */
  lemma ParseSignedOfSign(x: string, u: string, n: nat)
    requires |x| > 0 && IsSign(x[0]) && x[1..] == u
    requires ParseDigits(u) == Int(n)
    ensures ParseSigned(x) == Int(if x[0] == '-' then -(n as int) else n)
  {
  }

  lemma ParseSignedOfDigit(u: string)
    requires |u| > 0 && IsDigit(u[0])
    ensures ParseSigned(u) == ParseDigits(u)
  {
  }

  /** A digit run followed by something else reads as that run. */
  lemma ParseDigitsOfParts(d: string, rest: string)
    requires |d| > 0 && AllDigits(d)
    requires |rest| == 0 || !IsDigit(rest[0])
    ensures ParseDigits(d + rest) == Int(DecimalValue(d))
  {
    DigitRunOfPrefix(d, rest, 0);
    assert (d + rest)[..|d|] == d;
  }

  lemma DigitsFirst(d: string, rest: string)
    requires |d| > 0 && AllDigits(d)
    ensures |d + rest| > 0 && IsDigit((d + rest)[0])
  {
    assert (d + rest)[0] == d[0];
  }

  /** Text that starts with an optional sign and then a digit is kept
      whole by `trimStart`, and the sign comes off to leave the digits. */
  lemma SignThenDigit(sign: string, u: string)
    requires |sign| == 0 || (|sign| == 1 && IsSign(sign[0]))
    requires |u| > 0 && IsDigit(u[0])
    ensures var x := sign + u;
      && TrimStart(x) == x
      && (IsSign(x[0]) <==> |sign| == 1)
      && (|sign| == 1 ==> x[0] == sign[0] && x[1..] == u)
      && (|sign| == 0 ==> x == u)
  {
    var x := sign + u;
    if |sign| == 1 {
      assert x[0] == sign[0] && x[1..] == u;
    } else {
      assert x == u;
    }
    assert !IsSpace(x[0]);
  }

  lemma DigitRunOfPrefix(d: string, rest: string, i: nat)
    requires i <= |d| && AllDigits(d)
    requires |rest| == 0 || !IsDigit(rest[0])
    decreases |d| - i
    ensures DigitRunEnd(d + rest, i) == |d|
  {
    if i < |d| {
      assert (d + rest)[i] == d[i];
      DigitRunOfPrefix(d, rest, i + 1);
    } else if |rest| > 0 {
      assert (d + rest)[i] == rest[0];
    }
  }

  /** Text of which no digit follows an optional sign. */
  predicate NoLeadingDigits(t: string) {
    var u := if |t| > 0 && IsSign(t[0]) then t[1..] else t;
    !(|u| > 0 && IsDigit(u[0]))
  }

  /** `parseInt` is NaN exactly when no digit follows the leading
      whitespace and an optional sign. */
  lemma ParseIntNaN(w: string, rest: string)
    requires AllSpace(w)
    requires |rest| == 0 || !IsSpace(rest[0])
    ensures ParseInt(w + rest).NaN? <==> NoLeadingDigits(rest)
  {
    assert TrimStart(rest) == rest;
    ParseIntSkipsSpace(w, rest);
  }

  lemma DigitRunOfDigits(s: string, i: nat)
    requires i <= |s| && AllDigits(s)
    ensures DigitRunEnd(s, i) == |s|
  {
  }
}

=== FILE: todo_search.dfy ===
/** The to-do list search box: `searchInPage` hides the entries whose item
    name does not contain the search term and totals the sheets of the rest,
    and `changeBackgroundColor` colours the entries left visible by their
    sheet count. The entries are a sequence; the hidden flags and colours
    the functions write are a new sequence of the same length. */
module TodoSearch {
  import opened Base
  import opened Text
  import opened TodoText

  /** A to-do list entry (`[data-testid="merListItem-container"]`).
      - `paragraph`: text of its first `p` element, `None` when it has none;
      - `hidden`: hidden by the search, that is `display: none` together
        with `data-search-hidden="true"` (the two are always written
        together);
      - `background`: its inline background colour, "" when unset. */
  datatype Item = Item(paragraph: Option<string>, hidden: bool, background: string)

  /** `getTextContent(item, 'p')`: the paragraph's text, or "" when the entry
      has no paragraph. */
  function TextContent(item: Item): (text: string)
    ensures item.paragraph.None? ==> text == ""
    ensures item.paragraph.Some? ==> text == item.paragraph.value
  {
    match item.paragraph
    case None => ""
    case Some(t) => t
  }

  /** The item name of an entry, "" when its message does not match. */
  function NameOf(item: Item): string {
    ItemName(TextContent(item))
  }

  /** Whether a non-empty search keeps the entry visible. `lower` is
      `String.prototype.toLowerCase`; the term is already lower-cased by the
      input handler. */
  predicate Shows(item: Item, term: string, lower: string -> string) {
    var name := NameOf(item);
    name != "" && Contains(lower(name), term)
  }

  /** The counter's two numbers, shown as "合計: {totalCount}枚 ({itemCount}件)". */
  datatype Display = Display(totalCount: nat, itemCount: nat)

  /** `Shows` for one search, as the selection the loop applies. */
  function ShowsFor(term: string, lower: string -> string): Item -> bool {
    (x: Item) => Shows(x, term, lower)
  }

  /** The sheet count of an entry, `getItemCount` of its item name. */
  function Sheets(item: Item): nat {
    ItemCount(NameOf(item))
  }

  /** The entries `keep` selects, in order. */
  function Select(items: seq<Item>, keep: Item -> bool): (r: seq<Item>)
    ensures |r| <= |items|
    ensures forall x | x in r :: keep(x)
  {
    if |items| == 0 then []
    else
      var front := items[..|items| - 1];
      var last := items[|items| - 1];
      if keep(last) then Select(front, keep) + [last] else Select(front, keep)
  }

  /** The sum of `weight` over the entries. */
  function Sum(items: seq<Item>, weight: Item -> nat): nat {
    if |items| == 0 then 0
    else Sum(items[..|items| - 1], weight) + weight(items[|items| - 1])
  }

  /** The colour an entry with `count` sheets ends up with: the count's
      colour, or none. */
  function ColourFor(count: nat): string {
    match BackgroundColorByCount(count)
    case Some(c) => c
    case None => ""
  }

  function Recolour(item: Item): Item {
    if item.hidden || NameOf(item) == "" then item
    else item.(background := ColourFor(ItemCount(NameOf(item))))
  }

  /** `changeBackgroundColor`: hidden entries and entries without an item
      name are left alone; every other entry is reset and given the colour
      of its sheet count, if the count has one. */
  function ChangeBackgroundColor(items: seq<Item>): (r: seq<Item>)
    ensures |r| == |items|
    ensures forall i | 0 <= i < |items| ::
      r[i].paragraph == items[i].paragraph && r[i].hidden == items[i].hidden
    ensures forall i | 0 <= i < |items| && (items[i].hidden || NameOf(items[i]) == "") ::
      r[i] == items[i]
    ensures forall i | 0 <= i < |items| && !items[i].hidden && NameOf(items[i]) != "" ::
      r[i].background == ColourFor(ItemCount(NameOf(items[i])))
  {
    seq(|items|, i requires 0 <= i < |items| => Recolour(items[i]))
  }

  /** Colouring twice is colouring once. */
  lemma ChangeBackgroundColorIdempotent(items: seq<Item>)
    ensures ChangeBackgroundColor(ChangeBackgroundColor(items)) == ChangeBackgroundColor(items)
  {
  }

  /** Extending the entries by one extends the selection by that entry
      exactly when it is kept. */
  lemma SelectStep(items: seq<Item>, k: nat, keep: Item -> bool)
    requires k < |items|
    ensures keep(items[k]) ==> Select(items[..k + 1], keep) == Select(items[..k], keep) + [items[k]]
    ensures !keep(items[k]) ==> Select(items[..k + 1], keep) == Select(items[..k], keep)
  {
    assert items[..k + 1][..k] == items[..k];
  }

  lemma SumAppend(xs: seq<Item>, x: Item, weight: Item -> nat)
    ensures Sum(xs + [x], weight) == Sum(xs, weight) + weight(x)
  {
    assert (xs + [x])[..|xs|] == xs;
  }

  /** The hide-and-count loop of `searchInPage` for a non-empty term: each
      entry is hidden exactly when it is not kept, and the counter holds the
      number of kept entries and the sum of their weights. The loop writes
      the flags and adds to the counter in one pass; here the two halves of
      its body are two passes over the same entries. */
  method HideAndCount(items: seq<Item>, keep: Item -> bool, weight: Item -> nat)
    returns (filtered: seq<Item>, display: Display)
    ensures |filtered| == |items|
    ensures forall i | 0 <= i < |items| :: filtered[i] == items[i].(hidden := !keep(items[i]))
    ensures var kept := Select(items, keep);
      display == Display(Sum(kept, weight), |kept|)
  {
    filtered := HideEach(items, keep);
    display := CountKept(items, keep, weight);
  }

  /** The flag half of the loop: hide the entries not kept. */
  method HideEach(items: seq<Item>, keep: Item -> bool) returns (filtered: seq<Item>)
    ensures |filtered| == |items|
    ensures forall i | 0 <= i < |items| :: filtered[i] == items[i].(hidden := !keep(items[i]))
  {
    filtered := [];
    var k := 0;
    while k < |items|
      invariant 0 <= k <= |items|
      invariant |filtered| == k
      invariant forall i | 0 <= i < k :: filtered[i] == items[i].(hidden := !keep(items[i]))
    {
      filtered := filtered + [items[k].(hidden := !keep(items[k]))];
      k := k + 1;
    }
  }

  /** The counter half of the loop: count the kept entries and add up
      their weights. */
  method CountKept(items: seq<Item>, keep: Item -> bool, weight: Item -> nat) returns (display: Display)
    ensures var kept := Select(items, keep);
      display == Display(Sum(kept, weight), |kept|)
  {
    var total: nat := 0;
    var count: nat := 0;
    ghost var kept: seq<Item> := [];
    var k := 0;
    while k < |items|
      invariant 0 <= k <= |items|
      invariant kept == Select(items[..k], keep)
      invariant count == |kept| && total == Sum(kept, weight)
    {
      var item := items[k];
      SelectStep(items, k, keep);
      if keep(item) {
        SumAppend(kept, item, weight);
        kept := kept + [item];
        total := total + weight(item);
        count := count + 1;
      }
      k := k + 1;
    }
    assert items[..k] == items;
    display := Display(total, count);
  }

  /** `searchInPage`. An empty term shows every entry again and resets the
      counter; otherwise each entry is hidden exactly when it does not show,
      the counter totals the visible entries, and the visible entries are
      coloured. */
  method SearchInPage(items: seq<Item>, term: string, lower: string -> string)
    returns (result: seq<Item>, display: Display)
    ensures |result| == |items|
    ensures forall i | 0 <= i < |items| :: result[i].paragraph == items[i].paragraph
    ensures term == "" ==> display == Display(0, 0)
    ensures term == "" ==> forall i | 0 <= i < |items| :: result[i] == items[i].(hidden := false)
    ensures term != "" ==> forall i | 0 <= i < |items| ::
      result[i].hidden <==> !Shows(items[i], term, lower)
    ensures term != "" ==> forall i | 0 <= i < |items| ::
      result[i].background ==
        (if Shows(items[i], term, lower) then ColourFor(ItemCount(NameOf(items[i]))) else items[i].background)
    ensures term != "" ==>
      var visible := Select(items, ShowsFor(term, lower));
      display == Display(Sum(visible, Sheets), |visible|)
  {
    if term == "" {
      result := seq(|items|, i requires 0 <= i < |items| => items[i].(hidden := false));
      display := Display(0, 0);
    } else {
      var filtered;
      filtered, display := HideAndCount(items, ShowsFor(term, lower), Sheets);
      result := ChangeBackgroundColor(filtered);
      forall i | 0 <= i < |items| && Shows(items[i], term, lower)
        ensures NameOf(filtered[i]) == NameOf(items[i])
      {
        assert filtered[i].paragraph == items[i].paragraph;
      }
    }
  }

  /** Every entry a longer term keeps visible, a term it contains keeps
      visible too. */
  lemma ShowsNarrows(item: Item, term: string, longer: string, lower: string -> string)
    requires Contains(longer, term)
    ensures Shows(item, longer, lower) ==> Shows(item, term, lower)
  {
    if Shows(item, longer, lower) {
      ContainsTransitive(lower(NameOf(item)), longer, term);
    }
  }

  /** A selection that keeps fewer entries has no more entries and no more
      weight. */
  lemma {:induction false} SelectMonotone(items: seq<Item>, narrow: Item -> bool, wide: Item -> bool, weight: Item -> nat)
    requires forall x | x in items :: narrow(x) ==> wide(x)
    ensures |Select(items, narrow)| <= |Select(items, wide)|
    ensures Sum(Select(items, narrow), weight) <= Sum(Select(items, wide), weight)
  {
    if |items| > 0 {
      var front := items[..|items| - 1];
      var last := items[|items| - 1];
      assert forall x | x in front :: x in items;
      SelectMonotone(front, narrow, wide, weight);
      var a := Select(front, narrow);
      var b := Select(front, wide);
      if narrow(last) {
        assert (a + [last])[..|a|] == a;
        assert (b + [last])[..|b|] == b;
      } else if wide(last) {
        assert (b + [last])[..|b|] == b;
      }
    }
  }

  /** Typing more of a term never raises either counter. */
  lemma NarrowingLowersCounts(items: seq<Item>, term: string, longer: string, lower: string -> string)
    requires Contains(longer, term)
    ensures |Select(items, ShowsFor(longer, lower))| <= |Select(items, ShowsFor(term, lower))|
    ensures Sum(Select(items, ShowsFor(longer, lower)), Sheets) <= Sum(Select(items, ShowsFor(term, lower)), Sheets)
  {
    forall x | x in items ensures ShowsFor(longer, lower)(x) ==> ShowsFor(term, lower)(x) {
      ShowsNarrows(x, term, longer, lower);
    }
    SelectMonotone(items, ShowsFor(longer, lower), ShowsFor(term, lower), Sheets);
  }
}

=== FILE: todo_text.dfy ===
/** Reading a to-do list entry of the sales dashboard: the item name out of
    a message such as "山田さんが「ノート」を購入しました。", the number of
    sheets written as "3枚" inside that name, and the colour a count maps to.
    The regular expressions of `src/content.ts` are written out as explicit
    searches with the leftmost, lazy (name) and greedy (count) semantics of
    ECMAScript's matcher. */
module TodoText {
  import opened Base
  import opened Text

  /** "<buyer>さんが": what precedes the item name. */
  const BuyerMarker := "さんが"
  /** "…を購入しました。": a purchase message ends the name. */
  const PurchasedMarker := "を購入しました。"
  /** "…の支払いを完了": a payment message ends the name. */
  const PaidMarker := "の支払いを完了"
  /** The counter suffix for sheets. */
  const SheetSuffix := '枚'

  predicate IsBracket(c: char) {
    c == '「' || c == '」'
  }

  predicate NoBracket(s: string) {
    forall k | 0 <= k < |s| :: !IsBracket(s[k])
  }

  /** `replace(/「|」/g, '')`. */
  function RemoveBrackets(s: string): (r: string)
    ensures NoBracket(r)
    ensures forall k | 0 <= k < |r| :: r[k] in s
    ensures NoBracket(s) ==> r == s
  {
    if |s| == 0 then ""
    else if IsBracket(s[0]) then RemoveBrackets(s[1..])
    else [s[0]] + RemoveBrackets(s[1..])
  }

  /** The text the name pattern is matched against: whitespace runs
      collapsed, trimmed, brackets removed. */
  function Normalize(message: string): (t: string)
    ensures NoBracket(t)
  {
    RemoveBrackets(Trim(CollapseSpaces(message)))
  }

  /** Normalising drops whitespace and brackets only: apart from them, the
      characters of the message survive in order. */
  lemma NormalizeKeepsText(message: string)
    ensures RemoveSpaces(Normalize(message)) == RemoveBrackets(RemoveSpaces(message))
  {
    var c := Trim(CollapseSpaces(message));
    TrimKeepsText(CollapseSpaces(message));
    BracketsAndSpacesCommute(c);
  }

  /** A whitespace run between two words survives normalising as exactly
      one space; only the brackets of the words are dropped. */
  lemma NormalizeGap(a: string, w: string, b: string)
    requires |a| > 0 && NoSpace(a)
    requires |w| > 0 && AllSpace(w)
    requires |b| > 0 && NoSpace(b)
    ensures Normalize(a + w + b) == RemoveBrackets(a) + " " + RemoveBrackets(b)
  {
    CollapseBetweenWords(a, w, b);
    TrimTwoWords(a, b);
    BracketsOfTwoWords(a, b);
  }

  lemma TrimTwoWords(a: string, b: string)
    requires |a| > 0 && NoSpace(a)
    requires |b| > 0 && NoSpace(b)
    ensures Trim(a + " " + b) == a + " " + b
  {
    var m := a + " " + b;
    assert m[0] == a[0] && m[|m| - 1] == b[|b| - 1];
    TrimOfSolidEnds(m);
  }

  lemma BracketsOfTwoWords(a: string, b: string)
    ensures RemoveBrackets(a + " " + b) == RemoveBrackets(a) + " " + RemoveBrackets(b)
  {
    RemoveBracketsConcat(a + " ", b);
    RemoveBracketsConcat(a, " ");
    assert RemoveBrackets(" ") == " ";
  }

  lemma CollapseBetweenWords(a: string, w: string, b: string)
    requires |a| > 0 && NoSpace(a)
    requires |w| > 0 && AllSpace(w)
    requires |b| > 0 && NoSpace(b)
    ensures CollapseSpaces(a + w + b) == a + " " + b
  {
    CollapseGap(a, w, b);
    CollapseNoSpace(a);
    CollapseNoSpace(b);
  }

  /** The normalised text is on one line: collapsing turned every line
      terminator into a plain space. */
  lemma NormalizeOneLine(message: string)
    ensures OneLine(Normalize(message))
  {
    var c := CollapseSpaces(message);
    assert OneLine(c);
    TrimOneLine(c);
    BracketsOneLine(Trim(c));
  }

  lemma TrimOneLine(s: string)
    requires OneLine(s)
    ensures OneLine(Trim(s))
  {
    var u := TrimStart(s);
    OneLineSlice(s, u, |s| - |u|, |s|);
    var r := TrimEnd(u);
    OneLineSlice(u, r, 0, |r|);
  }

  lemma BracketsOneLine(s: string)
    requires OneLine(s)
    ensures OneLine(RemoveBrackets(s))
  {
    var t := RemoveBrackets(s);
    forall k | 0 <= k < |t| ensures !IsLineTerminator(t[k]) {
      assert t[k] in s;
    }
  }

  lemma OneLineSlice(s: string, r: string, a: nat, b: nat)
    requires OneLine(s) && a <= b <= |s| && r == s[a..b]
    ensures OneLine(r)
  {
    forall k | 0 <= k < |r| ensures !IsLineTerminator(r[k]) {
      assert r[k] == s[a + k];
    }
  }

  /** Removing brackets and removing whitespace can be done in either
      order. */
  lemma {:induction false} BracketsAndSpacesCommute(s: string)
    ensures RemoveSpaces(RemoveBrackets(s)) == RemoveBrackets(RemoveSpaces(s))
  {
    if |s| > 0 {
      BracketsAndSpacesCommute(s[1..]);
      if !IsBracket(s[0]) && !IsSpace(s[0]) {
        assert ([s[0]] + RemoveBrackets(s[1..]))[1..] == RemoveBrackets(s[1..]);
        assert ([s[0]] + RemoveSpaces(s[1..]))[1..] == RemoveSpaces(s[1..]);
      } else if IsSpace(s[0]) {
        assert ([s[0]] + RemoveBrackets(s[1..]))[1..] == RemoveBrackets(s[1..]);
      } else {
        assert ([s[0]] + RemoveSpaces(s[1..]))[1..] == RemoveSpaces(s[1..]);
      }
    }
  }

  /** The normalised text can start with a space, because trimming happens
      before the brackets are removed: "「 w" normalises to " w". */
  lemma NormalizeMayStartWithSpace(w: string)
    requires |w| > 0 && NoSpace(w) && NoBracket(w)
    ensures Normalize("「" + (" " + w)) == " " + w
  {
    BracketThenSpace('「', w);
  }

  /** `NormalizeMayStartWithSpace` for either bracket. */
  lemma BracketThenSpace(c: char, w: string)
    requires IsBracket(c)
    requires |w| > 0 && NoSpace(w) && NoBracket(w)
    ensures Normalize([c] + (" " + w)) == " " + w
  {
    var tail := " " + w;
    CollapseAfterNonSpace(c, tail);
    SpaceBeforeWord(w);
    TrimOfOpening(c, tail);
    BracketsOfOpening(c, w);
  }

  lemma SpaceBeforeWord(w: string)
    requires |w| > 0 && NoSpace(w)
    ensures CollapseSpaces(" " + w) == " " + w
  {
    var tail := " " + w;
    assert tail[1..] == w;
    CollapseNoSpace(w);
    assert TrimStart(tail) == w;
  }

  lemma TrimOfOpening(c: char, x: string)
    requires !IsSpace(c)
    requires |x| > 0 && !IsSpace(x[|x| - 1])
    ensures Trim([c] + x) == [c] + x
  {
    var m := [c] + x;
    assert m[|m| - 1] == x[|x| - 1];
    TrimOfSolidEnds(m);
  }

  /** A bracket is dropped and the space after it kept. */
  lemma BracketsOfOpening(c: char, w: string)
    requires IsBracket(c) && NoBracket(w)
    ensures RemoveBrackets([c] + (" " + w)) == " " + w
  {
    var x := " " + w;
    assert ([c] + x)[1..] == x;
    assert x[1..] == w;
  }

  /** One of the two endings of the name starts at `j`. */
  predicate EndsName(t: string, j: nat) {
    OccursAt(t, PurchasedMarker, j) || OccursAt(t, PaidMarker, j)
  }

  predicate OneLine(s: string) {
    forall k | 0 <= k < |s| :: !IsLineTerminator(s[k])
  }

  predicate NoLineBreak(t: string, a: nat, b: nat)
    requires a <= b <= |t|
  {
    forall k | a <= k < b :: !IsLineTerminator(t[k])
  }

  /** `/さんが(.+?)(?:を購入しました。|の支払いを完了)/` matches at `i` with
      the captured name `t[i + 3..j]`. */
  predicate NameMatch(t: string, i: int, j: int) {
    && 0 <= i
    && OccursAt(t, BuyerMarker, i)
    && i + |BuyerMarker| < j <= |t|
    && NoLineBreak(t, i + |BuyerMarker|, j)
    && EndsName(t, j)
  }

  predicate HasNameMatch(t: string) {
    exists i, j | 0 <= i <= j <= |t| :: NameMatch(t, i, j)
  }

  /** The lazy group: the least end `>= j` at which an ending starts, the
      group `t[g..end]` staying on one line. */
  function LazyEnd(t: string, g: nat, j: nat): (r: Option<nat>)
    requires g < j <= |t| && NoLineBreak(t, g, j)
    decreases |t| - j
    ensures r.Some? ==> j <= r.value <= |t| && NoLineBreak(t, g, r.value) && EndsName(t, r.value)
    ensures r.Some? ==> forall e | j <= e < r.value :: !EndsName(t, e)
    ensures r.None? ==> forall e: nat | j <= e <= |t| && NoLineBreak(t, g, e) :: !EndsName(t, e)
  {
    if EndsName(t, j) then Some(j)
    else if j == |t| || IsLineTerminator(t[j]) then None
    else LazyEnd(t, g, j + 1)
  }

  /** The leftmost match starting at or after `i`, with the lazy group. */
  function FindName(t: string, i: nat): (r: Option<(nat, nat)>)
    requires i <= |t|
    decreases |t| - i
    ensures r.Some? ==> i <= r.value.0 && NameMatch(t, r.value.0, r.value.1)
    ensures r.Some? ==> forall a, b | i <= a < r.value.0 :: !NameMatch(t, a, b)
    ensures r.Some? ==> forall b | b < r.value.1 :: !NameMatch(t, r.value.0, b)
    ensures r.None? ==> forall a, b | i <= a :: !NameMatch(t, a, b)
  {
    if i == |t| then None
    else
      var g := i + |BuyerMarker|;
      if OccursAt(t, BuyerMarker, i) && g < |t| && !IsLineTerminator(t[g]) then
        match LazyEnd(t, g, g + 1)
        case Some(j) => Some((i, j))
        case None => FindName(t, i + 1)
      else FindName(t, i + 1)
  }

  /** The capture of the leftmost match in normalised text, trimmed and
      stripped of whitespace; "" when nothing matches. */
  function Extract(t: string): (name: string)
    requires NoBracket(t)
    ensures !HasNameMatch(t) ==> name == ""
    ensures NoSpace(name) && NoBracket(name)
  {
    var m := FindName(t, 0);
    if m.None? then ""
    else
      CleanCapture(t, m.value.0 + |BuyerMarker|, m.value.1);
      RemoveSpaces(Trim(t[m.value.0 + |BuyerMarker|..m.value.1]))
  }

  /** `getItemName`. */
  function ItemName(message: string): (name: string)
    ensures !HasNameMatch(Normalize(message)) ==> name == ""
    ensures NoSpace(name) && NoBracket(name)
  {
    Extract(Normalize(message))
  }

  lemma NoBracketSlice(s: string, a: nat, b: nat)
    requires a <= b <= |s| && NoBracket(s)
    ensures NoBracket(s[a..b])
  {
    forall k | 0 <= k < b - a ensures !IsBracket(s[a..b][k]) {
      assert s[a..b][k] == s[a + k];
    }
  }

  /** A capture taken from bracket-free text comes out of trimming and
      space removal free of brackets. */
  lemma CleanCapture(t: string, a: nat, b: nat)
    requires a <= b <= |t| && NoBracket(t)
    ensures NoBracket(RemoveSpaces(Trim(t[a..b])))
  {
    var c := t[a..b];
    NoBracketSlice(t, a, b);
    var u := TrimStart(c);
    NoBracketSlice(c, |c| - |u|, |c|);
    var v := TrimEnd(u);
    NoBracketSlice(u, 0, |v|);
    var r := RemoveSpaces(v);
    forall k | 0 <= k < |r| ensures !IsBracket(r[k]) {
      assert r[k] in v;
    }
  }

  lemma {:induction false} RemoveBracketsConcat(x: string, y: string)
    ensures RemoveBrackets(x + y) == RemoveBrackets(x) + RemoveBrackets(y)
  {
    if |x| > 0 {
      assert (x + y)[1..] == x[1..] + y;
      RemoveBracketsConcat(x[1..], y);
    } else {
      assert x + y == y;
    }
  }

  /** A to-do entry as the dashboard writes it: buyer, "さんが", the item
      name in corner brackets, one of the two endings, and any trailing text. */
  function Message(buyer: string, item: string, ending: string, trailer: string): string {
    buyer + BuyerMarker + "「" + item + "」" + ending + trailer
  }

  lemma NoBracketConcat(x: string, y: string)
    requires NoBracket(x) && NoBracket(y)
    ensures NoBracket(x + y)
  {
    forall k | 0 <= k < |x + y| ensures !IsBracket((x + y)[k]) {
      if k >= |x| {
        assert (x + y)[k] == y[k - |x|];
      }
    }
  }

  /** The message around the item name: what comes before the opening
      bracket and what comes after the closing one. */
  lemma MessageAroundItem(buyer: string, item: string, ending: string, trailer: string)
    ensures Message(buyer, item, ending, trailer) ==
      (buyer + BuyerMarker + "「") + (item + ("」" + (ending + trailer)))
  {
  }

  lemma BeforeItem(buyer: string)
    requires NoSpace(buyer) && NoBracket(buyer)
    ensures var p := buyer + BuyerMarker + "「";
      && NoSpace(p) && |p| > 0 && !IsSpace(p[|p| - 1])
      && RemoveBrackets(p) == buyer + BuyerMarker
  {
    var h := buyer + BuyerMarker;
    assert NoSpace(BuyerMarker) && NoBracket(BuyerMarker) && NoSpace("「");
    NoSpaceConcat(buyer, BuyerMarker);
    NoSpaceConcat(h, "「");
    NoBracketConcat(buyer, BuyerMarker);
    RemoveBracketsConcat(h, "「");
    assert RemoveBrackets("「") == "";
  }

  /** What the proofs about a message need of its ending. */
  lemma EndingIsSolid(ending: string)
    requires ending == PurchasedMarker || ending == PaidMarker
    ensures |ending| > 0 && NoSpace(ending) && NoBracket(ending)
  {
    PurchasedIsSolid();
    PaidIsSolid();
  }

  lemma PurchasedIsSolid()
    ensures NoSpace(PurchasedMarker) && NoBracket(PurchasedMarker)
  {
  }

  lemma PaidIsSolid()
    ensures NoSpace(PaidMarker) && NoBracket(PaidMarker)
  {
  }

  /** The ending followed by the trailing text is solid text too. */
  lemma EndingThenTrailer(ending: string, trailer: string)
    requires |ending| > 0 && NoSpace(ending) && NoBracket(ending)
    requires NoSpace(trailer) && NoBracket(trailer)
    ensures var et := ending + trailer;
      |et| > 0 && NoSpace(et) && NoBracket(et)
  {
    NoSpaceConcat(ending, trailer);
    NoBracketConcat(ending, trailer);
  }

  lemma AfterItem(et: string)
    requires |et| > 0 && NoSpace(et) && NoBracket(et)
    ensures var q := "」" + et;
      && NoSpace(q) && |q| > 0 && !IsSpace(q[0]) && !IsSpace(q[|q| - 1])
      && RemoveBrackets(q) == et
  {
    assert NoSpace("」");
    NoSpaceConcat("」", et);
    RemoveBracketsConcat("」", et);
    assert RemoveBrackets("」") == "";
  }

  /** Normalising a dashboard message drops the two framing brackets and
      any brackets inside the item name, and collapses the whitespace runs
      inside the name to single spaces. */
  lemma NormalizeMessage(buyer: string, item: string, ending: string, trailer: string)
    requires ending == PurchasedMarker || ending == PaidMarker
    requires NoSpace(buyer) && NoBracket(buyer)
    requires NoSpace(trailer) && NoBracket(trailer)
    ensures Normalize(Message(buyer, item, ending, trailer)) ==
      buyer + BuyerMarker + RemoveBrackets(CollapseSpaces(item)) + ending + trailer
  {
    EndingIsSolid(ending);
    EndingThenTrailer(ending, trailer);
    MessageAroundItem(buyer, item, ending, trailer);
    NormalizeFramed(buyer, item, ending + trailer);
    Regroup(buyer, BuyerMarker, RemoveBrackets(CollapseSpaces(item)), ending, trailer);
  }

  /** `NormalizeMessage` with the ending and the trailing text taken as
      one piece of solid text. */
  lemma NormalizeFramed(buyer: string, item: string, et: string)
    requires NoSpace(buyer) && NoBracket(buyer)
    requires |et| > 0 && NoSpace(et) && NoBracket(et)
    ensures Normalize((buyer + BuyerMarker + "「") + (item + ("」" + et))) ==
      (buyer + BuyerMarker) + (RemoveBrackets(CollapseSpaces(item)) + et)
  {
    var p := buyer + BuyerMarker + "「";
    var q := "」" + et;
    var c := CollapseSpaces(item);
    CollapseFramed(buyer, item, et);
    BeforeItem(buyer);
    AfterItem(et);
    var m := p + (c + q);
    assert m[0] == p[0] && m[|m| - 1] == q[|q| - 1];
    TrimOfSolidEnds(m);
    RemoveBracketsConcat(p, c + q);
    RemoveBracketsConcat(c, q);
  }

  /** Collapsing a dashboard message collapses the item name only. */
  lemma CollapseFramed(buyer: string, item: string, et: string)
    requires NoSpace(buyer) && NoBracket(buyer)
    requires |et| > 0 && NoSpace(et) && NoBracket(et)
    ensures CollapseSpaces((buyer + BuyerMarker + "「") + (item + ("」" + et))) ==
      (buyer + BuyerMarker + "「") + (CollapseSpaces(item) + ("」" + et))
  {
    var p := buyer + BuyerMarker + "「";
    var q := "」" + et;
    BeforeItem(buyer);
    AfterItem(et);
    CollapseConcat(p, item + q);
    CollapseConcat(item, q);
    CollapseNoSpace(p);
    CollapseNoSpace(q);
  }

  lemma Regroup(a: string, b: string, c: string, d: string, e: string)
    ensures (a + b) + (c + (d + e)) == a + b + c + d + e
  {
  }

  /** A match that no match further left precedes and no shorter match at
      the same position undercuts is the one `FindName` reports. */
  lemma LeftmostLazy(t: string, a: nat, b: nat)
    requires NameMatch(t, a, b)
    requires forall a', b' | 0 <= a' < a :: !NameMatch(t, a', b')
    requires forall b' | b' < b :: !NameMatch(t, a, b')
    ensures FindName(t, 0) == Some((a, b))
  {
    var r := FindName(t, 0);
    assert r.Some?;
    assert r.value.0 == a;
  }

  lemma BuyerMarkerAt(buyer: string, rest: string)
    ensures OccursAt(buyer + BuyerMarker + rest, BuyerMarker, |buyer|)
  {
    OccursInRight(buyer, BuyerMarker + rest, BuyerMarker, 0);
    OccursInLeft(BuyerMarker, rest, BuyerMarker, 0);
    assert buyer + BuyerMarker + rest == buyer + (BuyerMarker + rest);
  }

  lemma ItemOnOneLine(head: string, item: string, rest: string)
    requires OneLine(item)
    ensures NoLineBreak(head + item + rest, |head|, |head| + |item|)
  {
    var t := head + item + rest;
    forall k | |head| <= k < |head| + |item| ensures !IsLineTerminator(t[k]) {
      assert t[k] == item[k - |head|];
    }
  }

  lemma EndingAfterItem(head: string, item: string, ending: string, trailer: string)
    requires ending == PurchasedMarker || ending == PaidMarker
    ensures EndsName(head + item + ending + trailer, |head| + |item|)
  {
    var hi := head + item;
    assert head + item + ending + trailer == hi + (ending + trailer);
    OccursInRight(hi, ending + trailer, ending, 0);
    OccursInLeft(ending, trailer, ending, 0);
    assert OccursAt(ending, ending, 0);
  }

  lemma NoEarlierMatch(buyer: string, rest: string)
    requires forall k | 0 <= k < |buyer| :: !OccursAt(buyer + BuyerMarker, BuyerMarker, k)
    ensures forall a, b | 0 <= a < |buyer| :: !NameMatch(buyer + BuyerMarker + rest, a, b)
  {
    forall a, b | 0 <= a < |buyer| ensures !NameMatch(buyer + BuyerMarker + rest, a, b) {
      OccursInLeft(buyer + BuyerMarker, rest, BuyerMarker, a);
    }
  }

  lemma NoEndingInsideItem(head: string, item: string, ending: string, trailer: string)
    requires ending == PurchasedMarker || ending == PaidMarker
    requires forall k | 0 < k < |item| :: !EndsName(item + ending, k)
    ensures forall j | |head| < j < |head| + |item| :: !EndsName(head + item + ending + trailer, j)
  {
    var body := item + ending;
    assert head + item + ending + trailer == head + (body + trailer);
    assert |ending| >= 7;
    forall j | |head| < j < |head| + |item| ensures !EndsName(head + (body + trailer), j) {
      NoEndingFurtherOn(head, body, trailer, j - |head|);
    }
  }

  /** No ending starts at `k` in `body`, and none fits past its end, so
      text around it adds none there. */
  lemma NoEndingFurtherOn(head: string, body: string, trailer: string, k: nat)
    requires k + 8 <= |body| && !EndsName(body, k)
    ensures !EndsName(head + (body + trailer), |head| + k)
  {
    assert |PurchasedMarker| == 8 && |PaidMarker| == 7;
    OccursInLeft(body, trailer, PurchasedMarker, k);
    OccursInLeft(body, trailer, PaidMarker, k);
    OccursInRight(head, body + trailer, PurchasedMarker, k);
    OccursInRight(head, body + trailer, PaidMarker, k);
  }

  /** The buyer marker, the item name and an ending form a match. */
  lemma ItemNameMatches(buyer: string, item: string, ending: string, trailer: string)
    requires ending == PurchasedMarker || ending == PaidMarker
    requires OneLine(item) && item != ""
    ensures NameMatch(buyer + BuyerMarker + item + ending + trailer, |buyer|,
                      |buyer| + |BuyerMarker| + |item|)
  {
    var head := buyer + BuyerMarker;
    var t := buyer + BuyerMarker + item + ending + trailer;
    assert t == head + item + ending + trailer;
    assert t == buyer + BuyerMarker + (item + ending + trailer);
    BuyerMarkerAt(buyer, item + ending + trailer);
    ItemOnOneLine(head, item, ending + trailer);
    assert head + item + (ending + trailer) == t;
    EndingAfterItem(head, item, ending, trailer);
  }

  /** No shorter match starts at the buyer marker: every earlier end is
      either inside the marker or inside the item name. */
  lemma NoShorterItemName(buyer: string, item: string, ending: string, trailer: string)
    requires ending == PurchasedMarker || ending == PaidMarker
    requires forall k | 0 < k < |item| :: !EndsName(item + ending, k)
    ensures var t := buyer + BuyerMarker + item + ending + trailer;
      forall b | b < |buyer| + |BuyerMarker| + |item| :: !NameMatch(t, |buyer|, b)
  {
    var head := buyer + BuyerMarker;
    var t := buyer + BuyerMarker + item + ending + trailer;
    assert t == head + item + ending + trailer;
    NoEndingInsideItem(head, item, ending, trailer);
    forall b | b < |buyer| + |BuyerMarker| + |item| ensures !NameMatch(t, |buyer|, b) {
      if |head| < b {
        assert !EndsName(t, b);
      }
    }
  }

  /** In the normalised message the leftmost, lazy match captures exactly
      the item name. */
  lemma MatchInMessage(t: string, e: nat, buyer: string, item: string, ending: string, trailer: string)
    requires ending == PurchasedMarker || ending == PaidMarker
    requires OneLine(item) && item != ""
    requires forall k | 0 <= k < |buyer| :: !OccursAt(buyer + BuyerMarker, BuyerMarker, k)
    requires forall k | 0 < k < |item| :: !EndsName(item + ending, k)
    requires t == buyer + BuyerMarker + item + ending + trailer
    requires e == |buyer| + |BuyerMarker| + |item|
    ensures FindName(t, 0) == Some((|buyer|, e))
  {
    ItemNameMatches(buyer, item, ending, trailer);
    NoEarlierMatch(buyer, item + ending + trailer);
    assert t == buyer + BuyerMarker + (item + ending + trailer);
    NoShorterItemName(buyer, item, ending, trailer);
    LeftmostLazy(t, |buyer|, e);
  }

  /** `getItemName` recovers the item name, without its whitespace and its
      brackets, from a dashboard message, provided the buyer's name does not
      itself contain "さんが", and the name as normalising leaves it is not
      empty and has no ending starting inside it (the lazy group needs one
      character and stops at the first ending). */
  lemma ItemNameOfMessage(buyer: string, item: string, ending: string, trailer: string)
    requires ending == PurchasedMarker || ending == PaidMarker
    requires NoSpace(buyer) && NoBracket(buyer)
    requires NoSpace(trailer) && NoBracket(trailer)
    requires forall k | 0 <= k < |buyer| :: !OccursAt(buyer + BuyerMarker, BuyerMarker, k)
    requires RemoveBrackets(CollapseSpaces(item)) != ""
    requires forall k | 0 < k < |RemoveBrackets(CollapseSpaces(item))| ::
      !EndsName(RemoveBrackets(CollapseSpaces(item)) + ending, k)
    ensures ItemName(Message(buyer, item, ending, trailer)) == RemoveBrackets(RemoveSpaces(item))
  {
    var name := RemoveBrackets(CollapseSpaces(item));
    NormalizeMessage(buyer, item, ending, trailer);
    ItemNameOfNormalized(Message(buyer, item, ending, trailer), buyer, name, ending, trailer);
    BracketsAndSpacesCommute(CollapseSpaces(item));
  }

  /** A name of two words, such as "ノート 3枚", comes back with the space
      between them removed. */
  lemma ItemNameOfTwoWords(buyer: string, a: string, b: string, ending: string, trailer: string)
    requires ending == PurchasedMarker || ending == PaidMarker
    requires NoSpace(buyer) && NoBracket(buyer)
    requires |a| > 0 && NoSpace(a) && NoBracket(a)
    requires |b| > 0 && NoSpace(b) && NoBracket(b)
    requires NoSpace(trailer) && NoBracket(trailer)
    requires forall k | 0 <= k < |buyer| :: !OccursAt(buyer + BuyerMarker, BuyerMarker, k)
    requires forall k | 0 < k < |a + " " + b| :: !EndsName(a + " " + b + ending, k)
    ensures ItemName(Message(buyer, a + " " + b, ending, trailer)) == a + b
  {
    SpaceIsRun();
    CollapseBetweenWords(a, " ", b);
    TwoWordsNoBracket(a, b);
    TwoWordsNoSpace(a, b);
    NoBracketConcat(a, b);
    ItemNameOfMessage(buyer, a + " " + b, ending, trailer);
  }

  /** A name holding a bracketed word, such as "「鬼滅」1巻", comes back
      without the inner brackets: "鬼滅1巻". */
  lemma ItemNameOfBracketedWord(buyer: string, open: char, a: string, close: char, b: string,
                                ending: string, trailer: string)
    requires ending == PurchasedMarker || ending == PaidMarker
    requires NoSpace(buyer) && NoBracket(buyer)
    requires IsBracket(open) && IsBracket(close)
    requires |a| > 0 && NoSpace(a) && NoBracket(a)
    requires NoSpace(b) && NoBracket(b)
    requires NoSpace(trailer) && NoBracket(trailer)
    requires forall k | 0 <= k < |buyer| :: !OccursAt(buyer + BuyerMarker, BuyerMarker, k)
    requires forall k | 0 < k < |a + b| :: !EndsName(a + b + ending, k)
    ensures ItemName(Message(buyer, [open] + a + [close] + b, ending, trailer)) == a + b
  {
    var item := [open] + a + [close] + b;
    BracketedWord(open, a, close, b);
    CollapseNoSpace(item);
    ItemNameOfMessage(buyer, item, ending, trailer);
  }

  lemma BracketedWord(open: char, a: string, close: char, b: string)
    requires IsBracket(open) && IsBracket(close)
    requires NoSpace(a) && NoBracket(a) && NoSpace(b) && NoBracket(b)
    ensures var item := [open] + a + [close] + b;
      NoSpace(item) && RemoveSpaces(item) == item && RemoveBrackets(item) == a + b
  {
    LoneBracket(open);
    LoneBracket(close);
    BracketedWordNoSpace([open], a, [close], b);
    BracketedWordBrackets([open], a, [close], b);
  }

  /** A bracket on its own is no whitespace, and bracket removal drops it. */
  lemma LoneBracket(c: char)
    requires IsBracket(c)
    ensures NoSpace([c]) && RemoveBrackets([c]) == []
  {
  }

  lemma BracketedWordNoSpace(o: string, a: string, c: string, b: string)
    requires NoSpace(o) && NoSpace(a) && NoSpace(c) && NoSpace(b)
    ensures NoSpace(o + a + c + b)
  {
    NoSpaceConcat(o, a);
    NoSpaceConcat(o + a, c);
    NoSpaceConcat(o + a + c, b);
  }

  lemma BracketedWordBrackets(o: string, a: string, c: string, b: string)
    requires RemoveBrackets(o) == [] && RemoveBrackets(c) == []
    requires NoBracket(a) && NoBracket(b)
    ensures RemoveBrackets(o + a + c + b) == a + b
  {
    RemoveBracketsConcat(o, a);
    assert RemoveBrackets(o + a) == a;
    RemoveBracketsConcat(o + a, c);
    assert RemoveBrackets(o + a + c) == a;
    RemoveBracketsConcat(o + a + c, b);
  }

  lemma SpaceIsRun()
    ensures AllSpace(" ") && NoBracket(" ") && RemoveSpaces(" ") == ""
  {
  }

  lemma TwoWordsNoBracket(a: string, b: string)
    requires NoBracket(a) && NoBracket(b)
    ensures NoBracket(a + " " + b)
  {
    SpaceIsRun();
    NoBracketConcat(a, " ");
    NoBracketConcat(a + " ", b);
  }

  lemma TwoWordsNoSpace(a: string, b: string)
    requires NoSpace(a) && NoSpace(b)
    ensures RemoveSpaces(a + " " + b) == a + b
  {
    SpaceIsRun();
    RemoveSpacesConcat(a + " ", b);
    RemoveSpacesConcat(a, " ");
  }

  /** Any message that normalises to "<buyer>さんが<item><ending><trailer>"
      yields the item name without its whitespace. */
  lemma ItemNameOfNormalized(message: string, buyer: string, item: string, ending: string, trailer: string)
    requires ending == PurchasedMarker || ending == PaidMarker
    requires item != ""
    requires forall k | 0 <= k < |buyer| :: !OccursAt(buyer + BuyerMarker, BuyerMarker, k)
    requires forall k | 0 < k < |item| :: !EndsName(item + ending, k)
    requires Normalize(message) == buyer + BuyerMarker + item + ending + trailer
    ensures ItemName(message) == RemoveSpaces(item)
  {
    var t := buyer + BuyerMarker + item + ending + trailer;
    var g := |buyer| + |BuyerMarker|;
    var e := g + |item|;
    NormalizeOneLine(message);
    CaptureSpan(t, g, e, buyer, item, ending, trailer);
    OneLineSlice(t, item, g, e);
    MatchInMessage(t, e, buyer, item, ending, trailer);
    ItemNameOfMatch(message, t, |buyer|, g, e);
    TrimKeepsText(item);
  }

  /** What `getItemName` returns once the leftmost match is known. */
  lemma ItemNameOfMatch(message: string, t: string, i: nat, g: nat, j: nat)
    requires Normalize(message) == t
    requires FindName(t, 0) == Some((i, j))
    requires g == i + |BuyerMarker|
    ensures g <= j <= |t|
    ensures ItemName(message) == RemoveSpaces(Trim(t[g..j]))
  {
    assert ItemName(message) == Extract(t);
    ExtractOfMatch(t, i, g, j);
  }

  /** `Extract` once the leftmost match is known. */
  lemma ExtractOfMatch(t: string, i: nat, g: nat, j: nat)
    requires NoBracket(t)
    requires FindName(t, 0) == Some((i, j))
    requires g == i + |BuyerMarker|
    ensures g <= j <= |t|
    ensures Extract(t) == RemoveSpaces(Trim(t[g..j]))
  {
    var m := FindName(t, 0);
    assert m.value.0 == i && m.value.1 == j;
  }

  /** The capture of a message spans exactly the item name. */
  lemma CaptureSpan(t: string, g: nat, e: nat, buyer: string, item: string, ending: string, trailer: string)
    requires t == buyer + BuyerMarker + item + ending + trailer
    requires g == |buyer| + |BuyerMarker| && e == g + |item|
    ensures g <= e <= |t| && t[g..e] == item
  {
    var hi := buyer + BuyerMarker + item;
    assert t == hi + ending + trailer;
    var s := t[g..e];
    forall k | 0 <= k < |item| ensures s[k] == item[k] {
      assert s[k] == t[g + k] == hi[g + k];
    }
  }

  // ----- the sheet count -----

  /** `/(\d+)枚/` matches at `i` with the digits `s[i..j]`. */
  predicate CountMatch(s: string, i: int, j: int) {
    && 0 <= i < j < |s|
    && (forall k | i <= k < j :: IsDigit(s[k]))
    && s[j] == SheetSuffix
  }

  /** The leftmost count match at or after `i`. A digit run that is not
      followed by the suffix is skipped whole: no shorter run inside it can
      be followed by the suffix either. */
  function FindCount(s: string, i: nat): (r: Option<(nat, nat)>)
    requires i <= |s|
    decreases |s| - i
    ensures r.Some? ==> i <= r.value.0 && CountMatch(s, r.value.0, r.value.1)
    ensures r.Some? ==> forall a, b | i <= a < r.value.0 :: !CountMatch(s, a, b)
    ensures r.None? ==> forall a, b | i <= a :: !CountMatch(s, a, b)
  {
    if i == |s| then None
    else if IsDigit(s[i]) then
      var j := DigitRunEnd(s, i);
      if j < |s| && s[j] == SheetSuffix then Some((i, j))
      else
        NoCountInsideRun(s, i, j);
        FindCount(s, j)
    else FindCount(s, i + 1)
  }

  /** No match starts inside a digit run that the suffix does not follow. */
  lemma NoCountInsideRun(s: string, i: nat, j: nat)
    requires i <= |s| && j == DigitRunEnd(s, i)
    requires !(j < |s| && s[j] == SheetSuffix)
    ensures forall a, b | i <= a < j :: !CountMatch(s, a, b)
  {
  }

  /** A match determines its digits: the run ends at the suffix. */
  lemma CountMatchEnd(s: string, i: nat, j: nat, j': nat)
    requires CountMatch(s, i, j) && CountMatch(s, i, j')
    ensures j == j'
  {
  }

  /** `getItemCount`: the value of the first digit run followed by "枚",
      or 0 when there is none. */
  function ItemCount(name: string): (n: nat)
    ensures (forall a, b | 0 <= a :: !CountMatch(name, a, b)) ==> n == 0
    ensures forall a, b | CountMatch(name, a, b) && (forall a', b' | 0 <= a' < a :: !CountMatch(name, a', b')) ::
      n == DecimalValue(name[a..b])
  {
    match FindCount(name, 0)
    case None => 0
    case Some((i, j)) =>
      LeftmostCount(name, i, j);
      DecimalValue(name[i..j])
  }

  /** The match `FindCount` returns is the only leftmost one. */
  lemma LeftmostCount(name: string, i: nat, j: nat)
    requires FindCount(name, 0) == Some((i, j))
    ensures forall a, b | CountMatch(name, a, b) && (forall a', b' | 0 <= a' < a :: !CountMatch(name, a', b')) ::
      a == i && b == j
  {
    forall a, b | CountMatch(name, a, b) && (forall a', b' | 0 <= a' < a :: !CountMatch(name, a', b'))
      ensures a == i && b == j
    {
      assert a == i;
      CountMatchEnd(name, i, j, b);
    }
  }

  /** `getItemCount` reads back a count written as "<n>枚" after text
      without digits. */
  lemma {:induction false} ItemCountOfSheets(prefix: string, n: nat, rest: string)
    requires forall k | 0 <= k < |prefix| :: !IsDigit(prefix[k])
    ensures ItemCount(prefix + ShowNat(n) + [SheetSuffix] + rest) == n
  {
    var d := ShowNat(n);
    var s := prefix + d + [SheetSuffix] + rest;
    var a := |prefix|;
    var b := |prefix| + |d|;
    assert s[a..b] == d;
    assert forall k | a <= k < b :: s[k] == d[k - a];
    assert s[b] == SheetSuffix;
    assert CountMatch(s, a, b);
    forall a', b' | 0 <= a' < a ensures !CountMatch(s, a', b') {
      assert s[a'] == prefix[a'];
    }
    DecimalValueOfShowNat(n);
  }

  /** `getBackgroundColorByCount`. */
  function BackgroundColorByCount(count: int): (c: Option<string>)
    ensures c.Some? <==> 1 <= count <= 4
  {
    match count
    case 4 => Some("#da3e50")
    case 3 => Some("#f0c14b")
    case 2 => Some("#4caf50")
    case 1 => Some("#2196f3")
    case _ => None
  }

  /** Different counts get different colours. */
  lemma ColoursAreDistinct(a: int, b: int)
    requires 1 <= a <= 4 && 1 <= b <= 4 && a != b
    ensures BackgroundColorByCount(a) != BackgroundColorByCount(b)
  {
  }
}

=== FILE: watcher.dfy ===
/** The listing-page watcher: the module-level state of
    `src/sell-create-content.ts` (`currentSettings`, `isMonitoring`,
    `monitoringTimeout`) as an immutable record, and every entry point as a
    pure transition that also returns what the page observes (clicks, waits,
    alerts).

    Time is abstract. A `setTimeout` registration is a `Timer` recording its
    delay and whether its callback is still due; the `monitoringTimeout` slot
    holds the most recent handle. A handle that is overwritten while its
    callback is still due can no longer be cleared; `lost` counts such
    callbacks, so "at most one tick is ever pending" can be stated and
    proved. Each tick, including a whole auto-change run, is atomic. */
module Watcher {
  import opened Base
  import opened Text
  import opened Settings
  import opened ListingPage
  import opened Sequencer

  /** The pause between detecting the marker and starting the auto-change. */
  const DetectionDelayMs := 2000

  /** One `setTimeout` registration. */
  datatype Timer = Timer(delayMs: int, due: bool)

  /** The watcher's state. */
  datatype Monitor = Monitor(
    settings: MonitoringSettings,
    isMonitoring: bool,
    timeout: Option<Timer>,
    lost: nat)

  /** State at script load. */
  const Initial := Monitor(DefaultSettings, false, None, 0)

  /** What one entry point leaves behind and what it did to the page. */
  datatype Reaction = Reaction(next: Monitor, effects: seq<Effect>)

  predicate HasDueHandle(m: Monitor) {
    m.timeout.Some? && m.timeout.value.due
  }

  /** Callbacks that will still run `runMonitoringCycle`. */
  function PendingTicks(m: Monitor): nat {
    m.lost + (if HasDueHandle(m) then 1 else 0)
  }

  /** The timer a cycle registers under the given settings. */
  function NextTick(s: MonitoringSettings): Timer {
    Timer(s.interval * 1000, true)
  }

  /** `stopMonitoring`: clears the stored handle (cancelling its callback if
      it is still due) and turns monitoring off; the settings are kept. */
  function StopMonitoring(m: Monitor): (r: Monitor)
    ensures !r.isMonitoring && r.timeout.None?
    ensures PendingTicks(r) == m.lost
    ensures PendingTicks(r) <= PendingTicks(m)
    ensures r.settings == m.settings && r.lost == m.lost
  {
    m.(isMonitoring := false, timeout := None)
  }

  /** Stopping twice is stopping once, and a stopped monitor is unchanged by
      another stop. */
  lemma StopIsIdempotent(m: Monitor)
    ensures StopMonitoring(StopMonitoring(m)) == StopMonitoring(m)
    ensures !m.isMonitoring && m.timeout.None? ==> StopMonitoring(m) == m
  {
  }

  /** `window.setTimeout(runMonitoringCycle, interval * 1000)`, its handle
      stored in `monitoringTimeout`. */
  function Schedule(m: Monitor): (r: Monitor)
    ensures r.timeout == Some(NextTick(m.settings))
    ensures PendingTicks(r) == PendingTicks(m) + 1
    ensures r.settings == m.settings && r.isMonitoring == m.isMonitoring
    ensures r.lost == m.lost + (if HasDueHandle(m) then 1 else 0)
  {
    m.(timeout := Some(NextTick(m.settings)), lost := PendingTicks(m))
  }

  /** What one inspection of the page concludes, in the order the checks
      are made. */
  datatype Inspection = RegionMissing | DescriptionEmpty | MarkerAbsent | MarkerFound

  predicate DescriptionFilled(p: Page) {
    p.description.Some? && p.description.value != ""
  }

  predicate MarkerShown(p: Page) {
    exists k | 0 <= k < |p.sections| :: Contains(p.sections[k], Marker)
  }

  /** The reading part of `checkTargetElement`. */
  function Inspect(p: Page): (i: Inspection)
    ensures i == MarkerFound <==> |p.sections| > 0 && DescriptionFilled(p) && MarkerShown(p)
    ensures i == RegionMissing <==> |p.sections| == 0
    ensures i == DescriptionEmpty <==> |p.sections| > 0 && !DescriptionFilled(p)
  {
    if |p.sections| == 0 then RegionMissing
    else if !DescriptionFilled(p) then DescriptionEmpty
    else if FirstIndex(p.sections, (t: string) => Contains(t, Marker), 0).Some? then MarkerFound
    else MarkerAbsent
  }

  /** `checkTargetElement`: one look at the page, and on detection either
      the auto-change (after the fixed delay, stopping afterwards whether it
      succeeds or throws), or an alert and a stop, or, with both flags off,
      nothing at all. */
  function CheckTargetElement(m: Monitor, p: Page, view: Stage -> Page): (r: Reaction)
    ensures r.next.settings == m.settings && r.next.lost == m.lost
    ensures r.next.isMonitoring ==> r.next == m
    ensures Inspect(p) != MarkerFound ==> r == Reaction(m, [])
    ensures Inspect(p) == MarkerFound && m.settings.autoChangeEnabled ==>
      && r.next == StopMonitoring(m)
      && r.effects == [Sleep(DetectionDelayMs)] + ExecuteAutoChange(view, m.settings.waitTime).effects
    ensures Inspect(p) == MarkerFound && !m.settings.autoChangeEnabled && m.settings.showAlert ==>
      r == Reaction(StopMonitoring(m), [Alert])
    ensures Inspect(p) == MarkerFound && !m.settings.autoChangeEnabled && !m.settings.showAlert ==>
      r == Reaction(m, [])
  {
    if Inspect(p) != MarkerFound then Reaction(m, [])
    else if m.settings.autoChangeEnabled then
      // A rethrown stage error is caught, logged, and also ends monitoring.
      var run := ExecuteAutoChange(view, m.settings.waitTime);
      Reaction(StopMonitoring(m), [Sleep(DetectionDelayMs)] + run.effects)
    else if m.settings.showAlert then
      Reaction(StopMonitoring(m), [Alert])
    else
      Reaction(m, [])
  }

  /** `runMonitoringCycle`: nothing when monitoring is off; otherwise one
      check, then one new timer exactly when monitoring survived the check. */
  function RunMonitoringCycle(m: Monitor, p: Page, view: Stage -> Page): (r: Reaction)
    ensures !m.isMonitoring ==> r == Reaction(m, [])
    ensures m.isMonitoring ==> r.effects == CheckTargetElement(m, p, view).effects
    ensures r.next.settings == m.settings
    ensures m.isMonitoring && r.next.isMonitoring ==> r.next.timeout == Some(NextTick(m.settings))
    ensures m.isMonitoring && !r.next.isMonitoring ==> r.next.timeout.None?
    ensures m.isMonitoring ==>
      PendingTicks(r.next) == (if r.next.isMonitoring then PendingTicks(m) + 1 else m.lost)
  {
    if !m.isMonitoring then Reaction(m, [])
    else
      var checked := CheckTargetElement(m, p, view);
      if checked.next.isMonitoring then Reaction(Schedule(checked.next), checked.effects)
      else checked
  }

  /** `startMonitoring`: always stops first; when disabled, stays off with
      no timer; otherwise runs the first cycle at once. */
  function StartMonitoring(m: Monitor, p: Page, view: Stage -> Page): (r: Reaction)
    ensures !m.settings.enabled ==> r == Reaction(StopMonitoring(m), [])
    ensures r.next.settings == m.settings
    ensures r.next.isMonitoring ==> m.settings.enabled && r.next.timeout == Some(NextTick(m.settings))
    ensures !r.next.isMonitoring ==> r.next.timeout.None?
    ensures r.next.lost == m.lost
    ensures PendingTicks(r.next) == m.lost + (if r.next.isMonitoring then 1 else 0)
  {
    var stopped := StopMonitoring(m);
    if !stopped.settings.enabled then Reaction(stopped, [])
    else RunMonitoringCycle(stopped.(isMonitoring := true), p, view)
  }

  /** Starting does not depend on whether, or how, the watcher was running:
      a restart is the same as a start from idle. */
  lemma StartForgetsPriorRun(m: Monitor, p: Page, view: Stage -> Page)
    ensures StartMonitoring(m, p, view) == StartMonitoring(StopMonitoring(m), p, view)
  {
  }

  /** `updateSettings`: replace the record; restart when the new record is
      enabled, stop when it switches monitoring off, and otherwise leave the
      (idle) watcher alone. */
  function UpdateSettings(m: Monitor, s: MonitoringSettings, p: Page, view: Stage -> Page): (r: Reaction)
    ensures r.next.settings == s
    ensures r.next.lost == m.lost
    ensures !s.enabled && m.settings.enabled ==> r == Reaction(StopMonitoring(m.(settings := s)), [])
    ensures !s.enabled && !m.settings.enabled ==> r == Reaction(m.(settings := s), [])
    ensures s.enabled ==> r == StartMonitoring(m.(settings := s), p, view)
  {
    var wasEnabled := m.settings.enabled;
    var updated := m.(settings := s);
    if wasEnabled != s.enabled || s.enabled then
      var stopped := StopMonitoring(updated);
      if s.enabled then StartMonitoring(stopped, p, view) else Reaction(stopped, [])
    else
      Reaction(updated, [])
  }

  /** The stored timer's callback fires: it is no longer due, and the cycle
      runs. With no due handle there is nothing to fire. */
  function TimerFires(m: Monitor, p: Page, view: Stage -> Page): (r: Reaction)
    ensures !HasDueHandle(m) ==> r == Reaction(m, [])
  {
    if HasDueHandle(m) then
      RunMonitoringCycle(m.(timeout := Some(m.timeout.value.(due := false))), p, view)
    else Reaction(m, [])
  }

  /** Everything that can happen to the watcher. `Loaded`: the script's
      initialisation reads storage and applies the record; `SettingsChanged`:
      the popup's `updateSettings` message; `Fired`: the pending tick runs;
      `Unloaded`: `beforeunload`. The pages are what each tick observes. */
  datatype Event =
    | Loaded(read: StorageRead, page: Page, view: Stage -> Page)
    | SettingsChanged(settings: MonitoringSettings, page: Page, view: Stage -> Page)
    | Fired(page: Page, view: Stage -> Page)
    | Unloaded

  function Step(m: Monitor, e: Event): (r: Reaction)
    ensures e.Loaded? ==> r.next.settings == LoadSettings(e.read)
    ensures e.SettingsChanged? ==> r.next.settings == e.settings
    ensures e.Fired? && !HasDueHandle(m) ==> r == Reaction(m, [])
    ensures e.Unloaded? ==>
      !r.next.isMonitoring && r.next.timeout.None? && r.next.settings == m.settings && r.effects == []
  {
    match e
    case Loaded(read, p, view) => UpdateSettings(m, LoadSettings(read), p, view)
    case SettingsChanged(s, p, view) => UpdateSettings(m, s, p, view)
    case Fired(p, view) => TimerFires(m, p, view)
    case Unloaded => Reaction(StopMonitoring(m), [])
  }

  function RunEvents(m: Monitor, events: seq<Event>): Monitor
    decreases |events|
  {
    if |events| == 0 then m else RunEvents(Step(m, events[0]).next, events[1..])
  }

  /** The watcher between events: no callback has been lost, a timer is
      stored exactly while monitoring, it is due and carries the current
      interval, and monitoring implies the settings enable it. */
  predicate Quiescent(m: Monitor) {
    && m.lost == 0
    && (m.isMonitoring <==> m.timeout.Some?)
    && (m.timeout.Some? ==> m.timeout.value == NextTick(m.settings))
    && (m.isMonitoring ==> m.settings.enabled)
  }

  /** In a quiescent state the pending-tick count is 1 while monitoring and
      0 otherwise. */
  lemma QuiescentPending(m: Monitor)
    requires Quiescent(m)
    ensures PendingTicks(m) == (if m.isMonitoring then 1 else 0)
  {
  }

  /** One tick of a running watcher. Without detection (a missing region or
      an empty description count as none) nothing happens and the same tick
      is pending again. On detection: with auto-change the sequence runs
      after the fixed delay and monitoring ends whatever its outcome; else
      with alerts one alert is raised and monitoring ends; with neither,
      monitoring simply continues. */
  lemma {:induction false} TickOutcome(m: Monitor, p: Page, view: Stage -> Page)
    requires Quiescent(m) && m.isMonitoring
    ensures var r := TimerFires(m, p, view);
      && (Inspect(p) != MarkerFound ==> r == Reaction(m, []))
      && (Inspect(p) == MarkerFound && m.settings.autoChangeEnabled ==>
            && !r.next.isMonitoring && PendingTicks(r.next) == 0
            && r.effects == [Sleep(DetectionDelayMs)] + ExecuteAutoChange(view, m.settings.waitTime).effects)
      && (Inspect(p) == MarkerFound && !m.settings.autoChangeEnabled && m.settings.showAlert ==>
            && !r.next.isMonitoring && PendingTicks(r.next) == 0
            && r.effects == [Alert])
      && (Inspect(p) == MarkerFound && !m.settings.autoChangeEnabled && !m.settings.showAlert ==>
            r == Reaction(m, []))
  {
    var fired := m.(timeout := Some(m.timeout.value.(due := false)));
    assert TimerFires(m, p, view) == RunMonitoringCycle(fired, p, view);
    var checked := CheckTargetElement(fired, p, view);
    if checked.next.isMonitoring {
      assert checked.next == fired;
      assert Schedule(fired) == m;
    }
  }

  /** Every event keeps the watcher quiescent. */
  lemma {:induction false} StepKeepsQuiescent(m: Monitor, e: Event)
    requires Quiescent(m)
    ensures Quiescent(Step(m, e).next)
  {
    match e
    case Fired(p, view) =>
      if m.isMonitoring {
        TickOutcome(m, p, view);
      }
    case Loaded(read, p, view) =>
    case SettingsChanged(s, p, view) =>
    case Unloaded =>
  }

  /** From script load, whatever happens, the watcher never has more than
      one tick pending, and has one exactly while monitoring. */
  lemma {:induction false} SingleFlight(events: seq<Event>)
    ensures Quiescent(RunEvents(Initial, events))
    ensures PendingTicks(RunEvents(Initial, events)) <= 1
  {
    QuiescentAfter(Initial, events);
    QuiescentPending(RunEvents(Initial, events));
  }

  lemma {:induction false} QuiescentAfter(m: Monitor, events: seq<Event>)
    requires Quiescent(m)
    ensures Quiescent(RunEvents(m, events))
    decreases |events|
  {
    if |events| > 0 {
      StepKeepsQuiescent(m, events[0]);
      QuiescentAfter(Step(m, events[0]).next, events[1..]);
    }
  }

  /** An update that keeps or turns monitoring on restarts the poll cadence
      from the moment of the update: if the first, immediate tick finds no
      marker, exactly one tick is pending, carrying the new interval. */
  lemma RestartAfterUpdate(m: Monitor, s: MonitoringSettings, p: Page, view: Stage -> Page)
    requires Quiescent(m) && s.enabled && Inspect(p) != MarkerFound
    ensures var r := UpdateSettings(m, s, p, view);
      && r.next.isMonitoring
      && r.next.timeout == Some(NextTick(s))
      && PendingTicks(r.next) == 1
      && r.effects == []
  {
  }

  /** An update that turns monitoring off leaves it off with nothing pending. */
  lemma DisableStops(m: Monitor, s: MonitoringSettings, p: Page, view: Stage -> Page)
    requires Quiescent(m) && !s.enabled
    ensures var r := UpdateSettings(m, s, p, view);
      !r.next.isMonitoring && PendingTicks(r.next) == 0 && r.effects == []
  {
  }
}
